=== FILE: README.md ===
# custom-ai-server: the sequential logic, in Dafny

This project models the few parts of the custom-ai-server Go service that are
pure, sequential logic once their I/O is factored out, and proves what they do.

- **The streamed answer** (`runAssistant` and `Chat` in pkg/ai/openai.go). The
  provider's server-sent-events body is read with `ReadString('\n')`. Each
  complete line starting with `data: ` gives a trimmed payload. A `[DONE]`
  payload ends the loop. The `delta.content` of every decoded event of type
  `delta` is appended to the answer. A clean EOF returns the answer; any other
  read error discards it.
  Module `AiStream`.
- **The CSV upload rewrite** (the CSV branch of `uploadFile`). A path whose
  lower-cased form ends in `.csv` is scanned line by line, each comma becomes a
  tab, and the upload is named `<path>.txt`. Module `AiUpload`.
- **`ConvertCSVToTxt`** (pkg/utils/utils.go). It derives the `.txt` path with
  `filepath.Ext`, reuses an existing `.txt`, and otherwise writes one
  tab-joined line per CSV record. Module `Utils`.
- **The `Protect` middleware decision** (pkg/auth/auth.go). It maps a header,
  a JWT oracle and `requireAdmin` to 401, 403 or "next handler with this user
  id". Module `Auth`.
- **The agent registry** (`LoadConfigs` in pkg/gpt/loader.go, and
  `ReloadGPTs` in internal/handlers/admin.go). It folds the `.yaml` entries of
  a directory into the slug-keyed `Configs` map. Module `Gpt`.

The Go library behaviour these depend on is modelled in `GoStrings`:
`HasPrefix`, `HasSuffix`, `TrimSuffix`, `TrimSpace` with `unicode.IsSpace`,
`ReplaceAll` with one rune, `ToLower` and `Join`. It is also modelled in
`GoFilepath`, which holds `filepath.Ext`. `GoStrings` also defines `Split`,
which the server never calls; it is there only to state that `Join` can be
undone (`GoStrings.SplitJoin`, `Utils.TabTextRoundTrip`). `Wrappers` holds
`Option` and `Result`.

External parsers are passed in as functions, and the file system and
transport are passed in as data. These parsers are:
- the JSON decoding of one payload;
- `jwt.Parse`;
- `yaml.Unmarshal`;
- `csv.Reader.ReadAll`.

The read loop keys on nothing but `data: ` lines; `event:` lines and every
other line pass unread. It silently skips a payload that does not decode. It
returns the text gathered so far on a clean EOF, even without `[DONE]`. It
only ever appends `delta.content`. The client has no tool-call round trip, no
run continuation and no markdown assembly, so none is modelled.

`ConvertCSVToTxt` creates the `.txt` file before writing any record and does
not remove it when a write fails. The model returns what `os.Stat` sees after
the call and the text that reached the file. A failing `WriteString` may
already have written part of its line, so after a failed write the file holds
the lines of the earlier records followed by a proper prefix of the failing
record's line. `Utils.ConvertTwice` shows the consequence: the next call for
the same CSV returns that truncated file as a successful conversion.

## Model

| member | source | states |
|---|---|---|
| AiStream.Frame | pkg/ai/openai.go:270-281 | Successive `ReadString('\n')` results: complete lines ending in their only newline, then an unterminated tail; together they are exactly the body |
| AiStream.FrameUnique | pkg/ai/openai.go:275 | Any split of a body into complete lines plus a newline-free tail is the one the reader produces |
| AiStream.FrameAppend | pkg/ai/openai.go:275 | A body prefix ending at a newline is read as its own lines, then the rest is read as if on its own |
| AiStream.Payload | pkg/ai/openai.go:289 | The text after `data: `, trimmed; no contract of its own, characterised through GoStrings.TrimSpaceSpec |
| AiStream.IsDoneLine | pkg/ai/openai.go:284-290 | A `data: ` line whose trimmed payload is `[DONE]`; no contract of its own, characterised by AiStream.DoneLineIff |
| AiStream.DoneLineIff | pkg/ai/openai.go:284-290 | A line ends the loop exactly when it is `data: `, white space, `[DONE]` and white space |
| AiStream.Accumulate | pkg/ai/openai.go:283-309 | The loop only appends: the answer it ends with starts with the answer it started from |
| AiStream.AccumulateStep | pkg/ai/openai.go:284-308 | A non-`[DONE]` line adds exactly its contribution (delta content, or nothing) and the loop continues |
| AiStream.AccumulateDone | pkg/ai/openai.go:289-292 | A line whose trimmed payload is `[DONE]` ends the loop with the answer unchanged |
| AiStream.DoneIndex | pkg/ai/openai.go:289-292 | The position of the first `[DONE]` line: no earlier line is one |
| AiStream.AccumulateSpec | pkg/ai/openai.go:274-309 | The loop yields the in-order concatenation of the contributions of all lines before the first `[DONE]`, and reports whether it met one |
| AiStream.AccumulateAppend | pkg/ai/openai.go:274-309 | Reading two runs of lines in turn equals reading their concatenation; after `[DONE]` the second run is ignored |
| AiStream.ReadAnswer | pkg/ai/openai.go:270-312 | The answer is the concatenated contributions before the first `[DONE]`; it is a read error exactly when the transport fails before any `[DONE]` line; a clean EOF never fails |
| AiStream.SilentLines | pkg/ai/openai.go:284-308 | Non-`data: ` lines, undecodable payloads, non-`delta` events and empty content add nothing (and only these, among decodable payloads) |
| AiStream.FrameInsert | pkg/ai/openai.go:275 | A complete line placed after a newline-terminated prefix is read as one line between the prefix's lines and the rest |
| AiStream.SilentLineIgnored | pkg/ai/openai.go:284-308 | Removing a silent complete line anywhere in the body does not change the result |
| AiStream.DoneStopsReading | pkg/ai/openai.go:289-292 | After a `[DONE]` line neither the remaining text nor how the transport ends affects the result, which is a success |
| AiStream.EofDropsTail | pkg/ai/openai.go:275-278 | On a clean EOF a final line without a newline is dropped unprocessed |
| AiStream.ReadErrorDiscards | pkg/ai/openai.go:276-281 | A non-EOF read error yields the read error exactly when no `[DONE]` line was read |
| AiStream.AnswerOnlyGrows | pkg/ai/openai.go:274-312 | Whatever text was read so far, even ending mid-line, more text can only extend the answer returned on a clean EOF |
| AiStream.DecodedContribution | pkg/ai/openai.go:300-308 | A decoded event contributes its content when its type is `delta`, nothing otherwise |
| AiStream.DoneTerminatedAnswer | pkg/ai/openai.go:274-309 | Over decodable `data: ` lines closed by `[DONE]`, the loop ends at `[DONE]` with the in-order contents of the `delta` events |
| AiStream.DecodedContributions | pkg/ai/openai.go:300-308 | For decodable `data: ` lines, the text each adds is its event's content when the type is `delta`, else nothing |
| AiStream.WellFormedStreamAnswer | pkg/ai/openai.go:271-312 | For a body of complete `data: ` lines that all decode, closed by a `[DONE]` line, the answer is the in-order concatenation of the `delta` events' contents, however the transport ends |
| AiStream.RunAssistant | pkg/ai/openai.go:245-313 | A failed request is the request error and only it; for a response, the reply is the concatenated contributions of the lines before the first `[DONE]` with no error when a `[DONE]` line was read or the stream ended in a clean EOF, and otherwise "" with the read error |
| AiStream.Chat | pkg/ai/openai.go:67-74 | The reply, text and error, is runAssistant's reply unchanged; an error yields ""; a success carries the stream's answer |
| AiStream.ChatIgnoresPrompt | pkg/ai/openai.go:67-74 | The prompt has no influence on the reply |
| AiUpload.IsCsvPath | pkg/ai/openai.go:87 | The branch test `HasSuffix(ToLower(path), ".csv")`; a predicate with no contract of its own, characterised by AiUpload.CsvPathByChars |
| AiUpload.CsvPathByChars | pkg/ai/openai.go:87 | The CSV branch fires iff the path ends in a dot followed by c, s, v in either case |
| AiUpload.DropCR | pkg/ai/openai.go:90 | bufio's `dropCR`: the result is the line without its final carriage return when it ends in one, and the line itself otherwise |
| AiUpload.ScanLines | pkg/ai/openai.go:89-91 | The scanner's lines hold no newline |
| AiUpload.ScanLinesGeneral | pkg/ai/openai.go:89-91 | For any text, with `\n` and `\r\n` endings mixed: every newline-terminated line comes back without its newline and one final carriage return, followed by the non-empty unterminated last line with its final carriage return dropped |
| AiUpload.ScanLinesCrlf | pkg/ai/openai.go:89-91 | Lines written with CRLF endings are scanned back exactly, the carriage returns stripped |
| AiUpload.CsvUploadCrlf | pkg/ai/openai.go:87-98 | A CSV with CRLF line endings is uploaded with LF endings and its commas made tabs |
| AiUpload.ScanLinesRoundTrip | pkg/ai/openai.go:89-93 | Without carriage returns, the scanned lines rejoined with newlines are the file text, newline-terminated |
| AiUpload.RewriteJoinedLines | pkg/ai/openai.go:92 | Replacing commas line by line and then joining equals replacing commas in the joined text |
| AiUpload.PrepareUpload | pkg/ai/openai.go:78-99 | An open failure is an error; a non-CSV file is sent unchanged under its own path; a CSV fails exactly when the scanner does; a CSV upload is named path + `.txt` and holds no comma |
| AiUpload.NoCommaAfterRewrite | pkg/ai/openai.go:92 | The rewritten text holds no comma |
| AiUpload.CsvUploadLines | pkg/ai/openai.go:87-98 | The converted body has one newline-terminated line per scanned line, in order, each with its commas made tabs |
| AiUpload.CsvUploadClosedForm | pkg/ai/openai.go:87-98 | Without carriage returns the converted body is the file text with commas made tabs and a final newline ensured |
| GoFilepath.Ext | pkg/utils/utils.go:15 | `filepath.Ext`: a suffix of the path which, when not empty, starts with a dot and holds no other dot and no separator |
| GoFilepath.ExtEmptyIff | pkg/utils/utils.go:15 | The extension is empty exactly when the final path element has no dot |
| GoFilepath.ExtOfSuffix | pkg/gpt/loader.go:31 | A path ending in a dot plus dot- and separator-free runes has exactly that extension |
| GoStrings.TrimSpace | pkg/ai/openai.go:289 | `strings.TrimSpace`; no contract of its own, characterised by GoStrings.TrimSpaceSpec |
| GoStrings.TrimSpacePadded | pkg/ai/openai.go:289 | A text that is `r` padded with white space, `r` neither starting nor ending with white space, trims to exactly `r` |
| GoStrings.TrimSpaceSpec | pkg/ai/openai.go:289 | `TrimSpace` removes white space at both ends only, and the result neither starts nor ends with white space |
| GoStrings.HasPrefix | pkg/ai/openai.go:284 | `strings.HasPrefix`; a predicate with no contract of its own (the prefix relation on sequences) |
| GoStrings.HasSuffix | pkg/ai/openai.go:87 | `strings.HasSuffix`; a predicate with no contract of its own (the text ends with the suffix) |
| GoStrings.TrimSuffix | pkg/utils/utils.go:15 | When `s` ends with the suffix, the result followed by the suffix is `s`; otherwise the result is `s` |
| GoStrings.ToLower | pkg/ai/openai.go:87 | Same length; every ASCII capital becomes its lower-case letter (code plus 32); every other rune is kept in place |
| GoStrings.ReplaceChar | pkg/ai/openai.go:92 | Same length; each rune equal to the pattern becomes the replacement and every other rune is kept in place |
| GoStrings.ReplaceCharRemoves | pkg/ai/openai.go:92 | Replacing every comma by a tab leaves no comma |
| GoStrings.Join | pkg/utils/utils.go:49 | `strings.Join` with a one-rune separator; no contract of its own, its inverse is GoStrings.SplitJoin |
| GoStrings.SplitJoin | pkg/utils/utils.go:49 | Splitting a tab-joined record on tabs gives its fields back when none holds a tab |
| Utils.TxtPath | pkg/utils/utils.go:15 | The derived path ends in `.txt`, and its stem followed by the original extension is the original path |
| Utils.TxtPathKeepsTxt | pkg/utils/utils.go:15 | A path already ending in `.txt` is its own derived path |
| Utils.TxtPathIdempotent | pkg/utils/utils.go:15 | Deriving twice is deriving once |
| Utils.ExtOfFinalElement | pkg/utils/utils.go:15 | The extension depends only on the final path element |
| Utils.TxtPathInDirectory | pkg/utils/utils.go:15 | Only the final element changes; the directory part is kept |
| Utils.JoinAvoids | pkg/utils/utils.go:49 | A record line holds no newline when none of its fields does |
| Utils.TabText | pkg/utils/utils.go:48-53 | The text the write loop produces; no contract of its own, characterised by Utils.TabTextLines and Utils.TabTextRoundTrip |
| Utils.TabTextLines | pkg/utils/utils.go:48-53 | The written text has one newline-terminated line per record, in record order, each the fields joined by tabs |
| Utils.TabTextRoundTrip | pkg/utils/utils.go:48-53 | Reading the text back as tab-separated lines gives the records when fields hold no tab or newline |
| Utils.EmbeddedNewlineSplitsRecord | pkg/utils/utils.go:48-53 | For any records, a field holding a newline puts a newline in its record's line, and the text then no longer splits into one line per record |
| Utils.RecordLine | pkg/utils/utils.go:49 | One record's line, its fields joined by tabs; no contract of its own, inverted by GoStrings.SplitJoin |
| Utils.Landed | pkg/utils/utils.go:50 | What a failing write leaves of its line: a proper prefix, of the length the sink reports when that is shorter than the line |
| Utils.TabTextAt | pkg/utils/utils.go:48-53 | The written text is the earlier records' lines, one record's line, then the later records' lines |
| Utils.TruncatedIsPrefix | pkg/utils/utils.go:48-53 | What a failed write loop leaves is a proper prefix of the complete text |
| Utils.WriteRecords | pkg/utils/utils.go:48-53 | All records written in order; or, at the first failing write, the earlier records' lines plus the part of the failing line that landed, a proper prefix of the full text, with failure reported |
| Utils.ConvertCsvToTxt | pkg/utils/utils.go:13-56 | An existing `.txt` is reused without opening the CSV; a stat error other than not-exist fails; otherwise each open, parse, create and write failure yields its own error and success writes the tab text; once the file is created it exists afterwards, holding the earlier records' lines and part of the failing line when a write fails, a proper prefix of the full text |
| Utils.ConvertTwice | pkg/utils/utils.go:18-52 | After a conversion that succeeded or failed in a write, the next call for the same CSV returns the existing `.txt`, which after a failed write holds the earlier records' lines and part of the failing one, a proper prefix of the full text |
| Auth.Protect | pkg/auth/auth.go:86-102 | 401 iff no exact `Bearer ` prefix or the token after it does not parse as valid; 403 iff a valid token lacks `admin == true` on an admin route; otherwise next with `sub` as the user id |
| Auth.NoBearerNoCheck | pkg/auth/auth.go:87-89 | Without the prefix the answer is 401 whatever the token oracle says |
| Auth.TokenIsHeaderRest | pkg/auth/auth.go:90-91 | Only the header after its first seven characters is given to the parser |
| Auth.RejectedTokenUnauthorized | pkg/auth/auth.go:94-96 | A token that fails to parse or is invalid is 401 with and without `requireAdmin` |
| Auth.AdminClaimOnlyNarrows | pkg/auth/auth.go:98-100 | Without `requireAdmin` the admin claim is never consulted and 403 never happens; with it, the only change is that some passes become 403 |
| Auth.SchemeIsCaseSensitive | pkg/auth/auth.go:87 | A lower-case `bearer ` scheme is refused |
| Gpt.IsYaml | pkg/gpt/loader.go:31 | The file test, written as "the name ends in `.yaml`"; no contract of its own, proved equal to the code's test by Gpt.YamlIsExactSuffix |
| Gpt.LoadEntries | pkg/gpt/loader.go:30-45 | Loading never removes a key, and every new key is the slug of some `.yaml` entry that decodes |
| Gpt.LoadConfigs | pkg/gpt/loader.go:25-46 | A directory listing failure returns an error and leaves the map untouched; no key is ever removed |
| Gpt.ReloadGpts | internal/handlers/admin.go:9-14 | The reload answers 200 or 500 and keeps every key present before |
| Gpt.ReloadSucceedsIff | internal/handlers/admin.go:10-13 | The reload answers 200 exactly when the directory lists and every `.yaml` file in it reads and decodes |
| Gpt.FirstFailure | pkg/gpt/loader.go:35-42 | The first `.yaml` entry whose read or decode fails; none before it fails |
| Gpt.LastProvider | pkg/gpt/loader.go:43 | The last entry whose config has a given slug; no later entry has it |
| Gpt.LoadStopsAtFailure | pkg/gpt/loader.go:35-42 | A failing `.yaml` entry ends the load with its read or parse error, keeping what the earlier entries inserted and loading nothing after it |
| Gpt.LoadStopsAtFirstFailure | pkg/gpt/loader.go:30-45 | The load errs exactly when some `.yaml` entry fails, with the first such entry's error and the map the entries before it left |
| Gpt.LoadSnoc | pkg/gpt/loader.go:30-44 | After entries that all load, one more entry is loaded on top of their result |
| Gpt.LoadedConfigs | pkg/gpt/loader.go:43 | Without failures the load succeeds and each config is stored under its slug, not its file name; the last entry with a slug wins; other keys keep their old values |
| Gpt.NonYamlIgnored | pkg/gpt/loader.go:31-33 | An entry without the `.yaml` extension changes nothing wherever it appears, even if reading it would fail |
| Gpt.YamlIsExactSuffix | pkg/gpt/loader.go:31 | The test `filepath.Ext(name) == ".yaml"` holds exactly when the name ends in `.yaml` |
| Gpt.OtherSpellingsSkipped | pkg/gpt/loader.go:31-33 | `.yml` and `.YAML` files have another extension and are skipped |

## Left out

- HTTP plumbing is left out as network I/O. This covers `NewAI`, the multipart POST in `uploadFile`, vector store and assistant creation, `sendUserMessage` and `addAuth`. The request that starts the stream is reduced to "failed" or "a body and how it ended".
- The JSON payload decoding, `jwt.Parse` with its signature verification, `yaml.Unmarshal` and `encoding/csv` are foreign library calls. They appear only as oracles or as their outcomes.
- Auth.Protect: `int(claims["sub"].(float64))` is not modelled. `sub` is given already converted to an integer, so the panic on a missing or non-numeric `sub` and the float truncation are not represented.
- Auth.Protect: the header is sliced by characters, not bytes. Both slices decide the same, since "Bearer " is ASCII.
- `Register` and `Login` are database queries plus bcrypt and token signing.
- AiUpload.PrepareUpload: the scanner's 64 KiB token limit and read failures are folded into one `scanFails` flag. They are not derived from the text.
- `GoStrings.ToLower` changes ASCII capitals only. No other rune lower-cases to `.`, `c`, `s` or `v`, so the `.csv` test is exact, but other results of `strings.ToLower` are not modelled.
- `GoFilepath` uses `/` as the only separator, as on Unix. Windows volume names and `\` are not modelled.
- Gpt: `Configs` is a package-level map that `ReloadGPTs` writes while `HandleWS` reads it, with no lock. Each load is modelled as one atomic step from map to map, so concurrent reloads and reads, a reader seeing a half-finished reload, and Go's fatal concurrent map access are not modelled.
- Gpt: the `temperature` field (a float) is not modelled, nor is the fact that `Configs` holds references. The listing is taken in the order given; `ioutil.ReadDir` sorts it by name.
- Gpt.LoadEntries: the extension test is written as "the name ends in `.yaml`". Gpt.YamlIsExactSuffix proves it equal to the code's `filepath.Ext(name) == ".yaml"`.
- Gpt.ReloadGpts: the fixed directory "configs/gpts" is represented by the listing passed in. Fiber's error body "reload failed" is reduced to the status code.
- Utils.ConvertCsvToTxt: `os.Stat` is a map from path to present or unstattable; a path not in the map does not exist. Only the `.txt` file's text as this call leaves it is returned, not a full file system. Closing files is not modelled.
- Utils.WriteRecords: what a failing write leaves is counted in runes, not bytes, so a short write that splits a multi-byte rune is not represented. A reported count of the whole line or more is taken as all but the newline, since a write that returns an error wrote less than its line.
- The WebSocket handler, PDF extraction, Postgres, Redis, migrations, routing, logging and configuration reads are I/O wiring.
- `runAssistant` receives a prompt it never sends, and `threadID` is never assigned. The model keeps the prompt as an unused parameter and proves that it is ignored.

=== FILE: aistream.dfy ===
/** The answer loop of `runAssistant` in pkg/ai/openai.go and the `Chat`
    entry point above it.

    The response body is read with `ReadString('\n')` until the reader
    reports an error; each complete line that starts with "data: " carries a
    payload, "[DONE]" ends the loop, and the `delta.content` of every event of
    type "delta" is appended to the answer. The body is modelled as the text
    the server sent together with how the transport ended (clean EOF or a read
    error); JSON decoding is an oracle from payload to the two fields read. */
module AiStream {
  import opened Wrappers
  import opened GoStrings

  const DataPrefix: string := "data: "
  const DoneMarker: string := "[DONE]"
  const DeltaType: string := "delta"

  /** The two fields the loop reads from a decoded payload: `type` and
      `delta.content` (Go's zero value "" when a field is missing). */
  datatype Event = Event(kind: string, content: string)

  /** json.Unmarshal into the event struct; None when it reports an error. */
  type Decoder = string -> Option<Event>

  /** What the reader reports once the body's text is used up. */
  datatype StreamEnd = CleanEof | ReadFailure

  /** The successive results of ReadString('\n'): complete lines (each with
      its '\n') and the unterminated text returned together with the error. */
  datatype Framed = Framed(lines: seq<string>, tail: string)

  /** A complete line as ReadString returns it: ends in its only '\n'. */
  predicate IsLine(s: string) {
    |s| > 0 && s[|s| - 1] == '\n' && '\n' !in s[..|s| - 1]
  }

  /** Every element is a complete line. */
  predicate AllLines(lines: seq<string>) {
    forall i | 0 <= i < |lines| :: IsLine(lines[i])
  }

  lemma AllLinesAppend(p: seq<string>, q: seq<string>)
    requires AllLines(p) && AllLines(q)
    ensures AllLines(p + q)
  {
    forall i | 0 <= i < |p + q| ensures IsLine((p + q)[i]) {
      if i < |p| { assert (p + q)[i] == p[i]; } else { assert (p + q)[i] == q[i - |p|]; }
    }
  }

  /** Text that ends at a line boundary. */
  predicate LineAligned(s: string) {
    s == [] || s[|s| - 1] == '\n'
  }

  function Frame(body: string): (f: Framed)
    ensures AllLines(f.lines)
    ensures '\n' !in f.tail
    ensures Concat(f.lines) + f.tail == body
    decreases |body|
  {
    if '\n' in body then
      var i := IndexOf(body, '\n');
      var rest := Frame(body[i + 1..]);
      var line := body[..i + 1];
      assert IsLine(line) by { assert line[..i] == body[..i]; }
      assert AllLines([line]);
      AllLinesAppend([line], rest.lines);
      ConcatCons(line, rest.lines);
      SplitAt(body, i, Concat(rest.lines), rest.tail);
      Framed([line] + rest.lines, rest.tail)
    else Framed([], body)
  }

  lemma SplitAt(body: string, i: nat, rest: string, tail: string)
    requires i < |body|
    requires rest + tail == body[i + 1..]
    ensures body[..i + 1] + rest + tail == body
  {
    assert body[..i + 1] + rest + tail == body[..i + 1] + (rest + tail);
  }

  /** Reading is deterministic: any split of the body into complete lines
      and an unterminated tail is the one the reader produces. */
  lemma {:induction false} FrameUnique(lines: seq<string>, tail: string)
    requires AllLines(lines)
    requires '\n' !in tail
    ensures Frame(Concat(lines) + tail) == Framed(lines, tail)
    decreases |lines|
  {
    if lines != [] {
      var l := lines[0];
      assert IsLine(l);
      assert AllLines(lines[1..]) by {
        forall i | 0 <= i < |lines| - 1 ensures IsLine(lines[1..][i]) {
          assert lines[1..][i] == lines[i + 1];
        }
      }
      var rest := Concat(lines[1..]) + tail;
      var body := Concat(lines) + tail;
      assert body == l + rest by {
        AppendAssoc(l, Concat(lines[1..]), tail);
      }
      assert '\n' in body && IndexOf(body, '\n') == |l| - 1 by {
        assert l == l[..|l| - 1] + ['\n'];
        IndexOfFirst(l[..|l| - 1], '\n', rest);
      }
      assert body[..|l|] == l && body[|l|..] == rest;
      FrameUnique(lines[1..], tail);
      assert Frame(body) == Framed([l] + lines[1..], tail);
      assert lines == [l] + lines[1..];
    }
  }

  lemma AlignedHasNoTail(a: string)
    requires LineAligned(a)
    ensures Frame(a).tail == []
  {
  }

  lemma AlignedConcat(a: string)
    requires LineAligned(a)
    ensures Concat(Frame(a).lines) == a
  {
    AlignedHasNoTail(a);
    AppendEmpty(Concat(Frame(a).lines));
  }

  /** Text that ends at a line boundary is read as its own lines, then the
      rest is read as if on its own. */
  lemma FrameAppend(a: string, b: string)
    requires LineAligned(a)
    ensures Frame(a + b) == Framed(Frame(a).lines + Frame(b).lines, Frame(b).tail)
  {
    var fa, fb := Frame(a), Frame(b);
    var lines := fa.lines + fb.lines;
    AllLinesAppend(fa.lines, fb.lines);
    assert Concat(lines) + fb.tail == a + b by {
      AlignedConcat(a);
      ConcatAppend(fa.lines, fb.lines);
      AppendAssoc(Concat(fa.lines), Concat(fb.lines), fb.tail);
    }
    FrameUnique(lines, fb.tail);
  }

  lemma FrameOneLine(line: string)
    requires IsLine(line)
    ensures Frame(line) == Framed([line], "")
  {
    assert Concat([line]) + "" == line;
    FrameUnique([line], "");
  }

  predicate IsDataLine(line: string) {
    HasPrefix(line, DataPrefix)
  }

  /** The trimmed payload of a "data: " line. */
  function Payload(line: string): string
    requires IsDataLine(line)
  {
    TrimSpace(line[|DataPrefix|..])
  }

  predicate IsDoneLine(line: string) {
    IsDataLine(line) && Payload(line) == DoneMarker
  }

  /** A "[DONE]" line is exactly "data: ", then white space, "[DONE]" and
      white space (the newline included). */
  lemma DoneLineIff(line: string)
    ensures IsDoneLine(line) <==>
      IsDataLine(line) && exists start :: SpacePadded(line[|DataPrefix|..], DoneMarker, start)
  {
    if IsDataLine(line) {
      var rest := line[|DataPrefix|..];
      TrimSpaceSpec(rest);
      if exists start :: SpacePadded(rest, DoneMarker, start) {
        var start :| SpacePadded(rest, DoneMarker, start);
        TrimSpacePadded(rest, DoneMarker, start);
      }
    }
  }

  /** The state of the loop: the answer so far and whether "[DONE]" ended it. */
  datatype Scan = Scan(answer: string, done: bool)

  /** The body of the `for` loop over the complete lines. */
  function Accumulate(lines: seq<string>, decode: Decoder, answer: string): (s: Scan)
    ensures HasPrefix(s.answer, answer)
    decreases |lines|
  {
    if lines == [] then Scan(answer, false)
    else
      var line := lines[0];
      if !HasPrefix(line, DataPrefix) then Accumulate(lines[1..], decode, answer)
      else
        var data := TrimSpace(line[|DataPrefix|..]);
        if data == DoneMarker then Scan(answer, true)
        else match decode(data)
          case None => Accumulate(lines[1..], decode, answer)
          case Some(evt) =>
            if evt.kind == DeltaType && evt.content != "" then
              Accumulate(lines[1..], decode, answer + evt.content)
            else Accumulate(lines[1..], decode, answer)
  }

  datatype ChatError = RequestError | ReadError

  /** The read loop of runAssistant: the answer, or the read error that
      discards it. */
  function ReadAnswer(body: string, end: StreamEnd, decode: Decoder): (r: Result<string, ChatError>)
    ensures end == CleanEof ==> r.Success?
    ensures r.Failure? ==> r.error == ReadError
    ensures var lines := Frame(body).lines;
      var k := DoneIndex(lines);
      r == if k < |lines| || end == CleanEof
           then Success(Concat(Contributions(lines[..k], decode)))
           else Failure(ReadError)
  {
    var scan := Accumulate(Frame(body).lines, decode, "");
    AccumulateSpec(Frame(body).lines, decode, "");
    AppendEmpty(Concat(Contributions(Frame(body).lines[..DoneIndex(Frame(body).lines)], decode)));
    if scan.done || end == CleanEof then Success(scan.answer) else Failure(ReadError)
  }

  // ---------------------------------------------------------------------
  // Reference definition of the answer

  /** The position of the first "[DONE]" line, or |lines| when there is none. */
  function DoneIndex(lines: seq<string>): (k: nat)
    ensures k <= |lines|
    ensures k < |lines| ==> IsDoneLine(lines[k])
    ensures forall i | 0 <= i < k :: !IsDoneLine(lines[i])
    decreases |lines|
  {
    if lines == [] then 0
    else if IsDoneLine(lines[0]) then 0
    else 1 + DoneIndex(lines[1..])
  }

  /** What one line before "[DONE]" adds to the answer. */
  function Contribution(line: string, decode: Decoder): string {
    if !IsDataLine(line) || IsDoneLine(line) then ""
    else match decode(Payload(line))
      case None => ""
      case Some(evt) => if evt.kind == DeltaType then evt.content else ""
  }

  function Contributions(lines: seq<string>, decode: Decoder): seq<string> {
    seq(|lines|, i requires 0 <= i < |lines| => Contribution(lines[i], decode))
  }

  /** One step of the loop over a line that is not "[DONE]". */
  lemma AccumulateStep(line: string, rest: seq<string>, decode: Decoder, answer: string)
    requires !IsDoneLine(line)
    ensures Accumulate([line] + rest, decode, answer)
         == Accumulate(rest, decode, answer + Contribution(line, decode))
  {
    assert ([line] + rest)[0] == line;
    assert ([line] + rest)[1..] == rest;
    AppendEmpty(answer);
  }

  /** A "[DONE]" line ends the loop with the answer as it stands. */
  lemma AccumulateDone(line: string, rest: seq<string>, decode: Decoder, answer: string)
    requires IsDoneLine(line)
    ensures Accumulate([line] + rest, decode, answer) == Scan(answer, true)
  {
    assert ([line] + rest)[0] == line;
  }

  lemma ContributionsCons(line: string, rest: seq<string>, decode: Decoder)
    ensures Contributions([line] + rest, decode) == [Contribution(line, decode)] + Contributions(rest, decode)
  {
    var l := Contributions([line] + rest, decode);
    var r := [Contribution(line, decode)] + Contributions(rest, decode);
    assert |l| == |r|;
    forall i | 0 <= i < |l| ensures l[i] == r[i] {
      if i > 0 { assert ([line] + rest)[i] == rest[i - 1]; }
    }
  }

  /** The loop appends, in order, the contribution of every line before the
      first "[DONE]", and reports whether it met one. */
  lemma {:induction false} AccumulateSpec(lines: seq<string>, decode: Decoder, answer: string)
    ensures var k := DoneIndex(lines);
      Accumulate(lines, decode, answer)
        == Scan(answer + Concat(Contributions(lines[..k], decode)), k < |lines|)
    decreases |lines|
  {
    var k := DoneIndex(lines);
    if k == 0 {
      assert lines[..k] == [];
      assert Contributions([], decode) == [];
      AppendEmpty(answer);
      if lines != [] {
        assert lines == [lines[0]] + lines[1..];
        AccumulateDone(lines[0], lines[1..], decode, answer);
      }
    } else {
      var l, rest := lines[0], lines[1..];
      var c := Contribution(l, decode);
      var k' := DoneIndex(rest);
      assert k == k' + 1;
      assert lines == [l] + rest;
      AccumulateStep(l, rest, decode, answer);
      AccumulateSpec(rest, decode, answer + c);
      assert lines[..k] == [l] + rest[..k'];
      ContributionsCons(l, rest[..k'], decode);
      ConcatCons(c, Contributions(rest[..k'], decode));
      AppendAssoc(answer, c, Concat(Contributions(rest[..k'], decode)));
    }
  }

  /** Reading two runs of lines in turn is reading their concatenation. */
  lemma {:induction false} AccumulateAppend(p: seq<string>, q: seq<string>, decode: Decoder, answer: string)
    ensures var s := Accumulate(p, decode, answer);
      Accumulate(p + q, decode, answer) == if s.done then s else Accumulate(q, decode, s.answer)
    decreases |p|
  {
    if p == [] {
      assert p + q == q;
    } else {
      var l := p[0];
      assert p == [l] + p[1..];
      AppendAssoc([l], p[1..], q);
      if IsDoneLine(l) {
        AccumulateDone(l, p[1..] + q, decode, answer);
        AccumulateDone(l, p[1..], decode, answer);
      } else {
        var c := Contribution(l, decode);
        AccumulateStep(l, p[1..] + q, decode, answer);
        AccumulateStep(l, p[1..], decode, answer);
        AccumulateAppend(p[1..], q, decode, answer + c);
      }
    }
  }

  // ---------------------------------------------------------------------
  // Properties of the answer loop, stated on the raw body

  /** A line is silent when the loop passes over it without change: any line
      not starting with "data: " (event names, ':' heartbeats, blank lines,
      "data:" with no space), a payload that does not decode, and an event
      that is not a "delta" or carries empty content. */
  predicate Silent(line: string, decode: Decoder) {
    !IsDoneLine(line) && Contribution(line, decode) == ""
  }

  lemma SilentLines(line: string, decode: Decoder)
    ensures !IsDataLine(line) ==> Silent(line, decode)
    ensures IsDataLine(line) && !IsDoneLine(line) && decode(Payload(line)).None? ==> Silent(line, decode)
    ensures IsDataLine(line) && !IsDoneLine(line) && decode(Payload(line)).Some?
      ==> (Silent(line, decode) <==> decode(Payload(line)).value.kind != DeltaType
                                      || decode(Payload(line)).value.content == "")
  {
  }

  /** The lines of `a + line + b` when `a` ends at a line boundary. */
  lemma FrameInsert(a: string, line: string, b: string)
    requires LineAligned(a) && IsLine(line)
    ensures Frame(a + line + b).lines == Frame(a).lines + [line] + Frame(b).lines
    ensures Frame(a + line + b).tail == Frame(b).tail
  {
    FrameOneLine(line);
    FrameAppend(a, line);
    assert LineAligned(a + line);
    FrameAppend(a + line, b);
  }

  /** A silent complete line can be removed from the body without changing
      what the loop returns, whatever follows it. */
  lemma SilentLineIgnored(a: string, line: string, b: string, end: StreamEnd, decode: Decoder)
    requires LineAligned(a) && IsLine(line) && Silent(line, decode)
    ensures ReadAnswer(a + line + b, end, decode) == ReadAnswer(a + b, end, decode)
  {
    FrameInsert(a, line, b);
    FrameAppend(a, b);
    var pre, post := Frame(a).lines, Frame(b).lines;
    AccumulateAppend(pre + [line], post, decode, "");
    AccumulateAppend(pre, [line], decode, "");
    AccumulateAppend(pre, post, decode, "");
    var s := Accumulate(pre, decode, "");
    AccumulateStep(line, [], decode, s.answer);
    assert [line] + [] == [line];
    AppendEmpty(s.answer);
  }

  /** Once a complete line's payload trims to "[DONE]", nothing after it
      matters, not even how the transport ends. */
  lemma DoneStopsReading(a: string, done: string, b1: string, b2: string,
                         end1: StreamEnd, end2: StreamEnd, decode: Decoder)
    requires LineAligned(a) && IsLine(done) && IsDoneLine(done)
    ensures ReadAnswer(a + done + b1, end1, decode) == ReadAnswer(a + done + b2, end2, decode)
    ensures ReadAnswer(a + done + b1, end1, decode).Success?
  {
    FrameInsert(a, done, b1);
    FrameInsert(a, done, b2);
    var pre := Frame(a).lines;
    AccumulateAppend(pre, [done], decode, "");
    var s := Accumulate(pre, decode, "");
    AccumulateDone(done, [], decode, s.answer);
    assert [done] + [] == [done];
    AccumulateAppend(pre + [done], Frame(b1).lines, decode, "");
    AccumulateAppend(pre + [done], Frame(b2).lines, decode, "");
  }

  /** On a clean EOF the text after the last newline is returned together
      with EOF and dropped unread. */
  lemma EofDropsTail(a: string, tail: string, decode: Decoder)
    requires LineAligned(a) && '\n' !in tail
    ensures ReadAnswer(a + tail, CleanEof, decode) == ReadAnswer(a, CleanEof, decode)
  {
    FrameAppend(a, tail);
    assert Frame(tail) == Framed([], tail);
    AppendEmpty(Frame(a).lines);
  }

  /** Some complete line is a "[DONE]" line. */
  predicate HasDone(lines: seq<string>) {
    exists i | 0 <= i < |lines| :: IsDoneLine(lines[i])
  }

  /** A read error other than EOF discards everything gathered, unless a
      "[DONE]" line was read first. */
  lemma ReadErrorDiscards(body: string, decode: Decoder)
    ensures ReadAnswer(body, ReadFailure, decode) == Failure(ReadError) <==> !HasDone(Frame(body).lines)
  {
    var lines := Frame(body).lines;
    var k := DoneIndex(lines);
    if k < |lines| {
      assert IsDoneLine(lines[k]);
    }
  }

  /** From a line boundary, more text only extends the answer. */
  lemma AlignedAnswerGrows(a: string, b: string, decode: Decoder)
    requires LineAligned(a)
    ensures HasPrefix(ReadAnswer(a + b, CleanEof, decode).value, ReadAnswer(a, CleanEof, decode).value)
  {
    FrameAppend(a, b);
    AccumulateAppend(Frame(a).lines, Frame(b).lines, decode, "");
  }

  /** The complete lines of any text end at a line boundary. */
  lemma {:induction false} LinesAligned(lines: seq<string>)
    requires AllLines(lines)
    ensures LineAligned(Concat(lines))
    decreases |lines|
  {
    if lines != [] {
      assert IsLine(lines[0]);
      assert AllLines(lines[1..]) by {
        forall i | 0 <= i < |lines| - 1 ensures IsLine(lines[1..][i]) {
          assert lines[1..][i] == lines[i + 1];
        }
      }
      LinesAligned(lines[1..]);
    }
  }

  /** Whatever has been read so far, even a partial line, more text can only
      extend the answer returned on a clean EOF. */
  lemma AnswerOnlyGrows(a: string, b: string, decode: Decoder)
    ensures HasPrefix(ReadAnswer(a + b, CleanEof, decode).value, ReadAnswer(a, CleanEof, decode).value)
  {
    var f := Frame(a);
    var p := Concat(f.lines);
    LinesAligned(f.lines);
    FrameUnique(f.lines, "");
    AppendEmpty(p);
    AppendAssoc(p, f.tail, b);
    AlignedAnswerGrows(p, f.tail + b, decode);
  }

  /** The text of the "delta" events, in order. */
  function DeltaTexts(events: seq<Event>): seq<string> {
    seq(|events|, i requires 0 <= i < |events| => if events[i].kind == DeltaType then events[i].content else "")
  }

  lemma DecodedContribution(line: string, decode: Decoder)
    requires IsDataLine(line) && !IsDoneLine(line) && decode(Payload(line)).Some?
    ensures var evt := decode(Payload(line)).value;
      Contribution(line, decode) == if evt.kind == DeltaType then evt.content else ""
  {
  }

  /** Every line is a "data: " line whose payload decodes, and none is
      "[DONE]". */
  predicate AllDecoded(lines: seq<string>, decode: Decoder) {
    forall i | 0 <= i < |lines| :: IsDataLine(lines[i]) && !IsDoneLine(lines[i]) && decode(Payload(lines[i])).Some?
  }

  /** The events such lines decode to, in order. */
  function Events(lines: seq<string>, decode: Decoder): seq<Event>
    requires AllDecoded(lines, decode)
  {
    seq(|lines|, i requires 0 <= i < |lines| => decode(Payload(lines[i])).value)
  }

  lemma DecodedContributions(lines: seq<string>, decode: Decoder)
    requires AllDecoded(lines, decode)
    ensures Contributions(lines, decode) == DeltaTexts(Events(lines, decode))
  {
    var cs, ds := Contributions(lines, decode), DeltaTexts(Events(lines, decode));
    assert |cs| == |ds|;
    forall i | 0 <= i < |lines| ensures cs[i] == ds[i] {
      DecodedContribution(lines[i], decode);
    }
  }

  /** The loop over decodable "data: " lines closed by "[DONE]" gathers the
      content of their "delta" events, in order. */
  lemma DoneTerminatedAnswer(lines: seq<string>, decode: Decoder)
    requires |lines| > 0 && IsDoneLine(lines[|lines| - 1]) && AllDecoded(lines[..|lines| - 1], decode)
    ensures Accumulate(lines, decode, "") == Scan(Concat(DeltaTexts(Events(lines[..|lines| - 1], decode))), true)
  {
    var n := |lines| - 1;
    assert DoneIndex(lines) == n by {
      forall i | 0 <= i < n ensures !IsDoneLine(lines[i]) {
        assert lines[..n][i] == lines[i];
      }
    }
    AccumulateSpec(lines, decode, "");
    AppendEmpty(Concat(Contributions(lines[..n], decode)));
    DecodedContributions(lines[..n], decode);
  }

  /** A well-formed stream: complete "data: " lines whose payloads decode,
      then a "[DONE]" line. Its answer is the concatenated content of its
      "delta" events, in order, however the transport ends. */
  lemma WellFormedStreamAnswer(dataLines: seq<string>, done: string, end: StreamEnd, decode: Decoder)
    requires AllLines(dataLines) && AllDecoded(dataLines, decode)
    requires IsLine(done) && IsDoneLine(done)
    ensures ReadAnswer(Concat(dataLines + [done]), end, decode)
         == Success(Concat(DeltaTexts(Events(dataLines, decode))))
  {
    var lines := dataLines + [done];
    assert AllLines(lines) by {
      assert AllLines([done]);
      AllLinesAppend(dataLines, [done]);
    }
    FrameUnique(lines, "");
    AppendEmpty(Concat(lines));
    assert lines[..|lines| - 1] == dataLines;
    DoneTerminatedAnswer(lines, decode);
  }

  // ---------------------------------------------------------------------
  // Chat and runAssistant

  /** What the HTTP round trip gives the loop: no response at all (the
      request could not be built or sent), or a body and how it ends. */
  datatype Transport = RequestFailed | Responded(body: string, end: StreamEnd)

  /** Go's `(string, error)` result pair. */
  datatype Reply = Reply(text: string, err: Option<ChatError>)

  /** runAssistant: the prompt is accepted but never sent; only the stream
      decides the reply. */
  function RunAssistant(prompt: string, transport: Transport, decode: Decoder): (r: Reply)
    ensures r.err.Some? ==> r.text == ""
    ensures transport.RequestFailed? <==> r.err == Some(RequestError)
    ensures transport.Responded? && transport.end == CleanEof ==> r.err.None?
    ensures transport.Responded? ==>
      var lines := Frame(transport.body).lines;
      var k := DoneIndex(lines);
      r == if k < |lines| || transport.end == CleanEof
           then Reply(Concat(Contributions(lines[..k], decode)), None)
           else Reply("", Some(ReadError))
  {
    match transport
    case RequestFailed => Reply("", Some(RequestError))
    case Responded(body, end) =>
      match ReadAnswer(body, end, decode)
      case Success(answer) => Reply(answer, None)
      case Failure(e) => Reply("", Some(e))
  }

  /** Chat returns runAssistant's reply, with "" on any error: since
      runAssistant already answers "" with every error, the reply passes
      through unchanged. */
  function Chat(prompt: string, transport: Transport, decode: Decoder): (r: Reply)
    ensures r == RunAssistant(prompt, transport, decode)
    ensures r.err.Some? ==> r.text == ""
    ensures r.err.None? && transport.Responded?
      ==> Success(r.text) == ReadAnswer(transport.body, transport.end, decode)
  {
    var reply := RunAssistant(prompt, transport, decode);
    if reply.err.Some? then Reply("", reply.err) else Reply(reply.text, None)
  }

  /** The prompt has no influence on the reply. */
  lemma ChatIgnoresPrompt(p1: string, p2: string, transport: Transport, decode: Decoder)
    ensures Chat(p1, transport, decode) == Chat(p2, transport, decode)
  {
  }
}

=== FILE: aiupload.dfy ===
/** The CSV branch of `uploadFile` in pkg/ai/openai.go: before a file is sent
    to the provider, a path ending in ".csv" (in any letter case) is read line
    by line with a bufio.Scanner, every comma becomes a tab, and the upload is
    named after the original path with ".txt" appended. Any other file is sent
    as it is, under its own path. Opening the file and the scanner's error
    report are inputs; the multipart POST that follows is not modelled. */
module AiUpload {
  import opened Wrappers
  import opened GoStrings

  const CsvSuffix: string := ".csv"
  const TxtSuffix: string := ".txt"

  /** strings.HasSuffix(strings.ToLower(path), ".csv") */
  predicate IsCsvPath(path: string) {
    HasSuffix(ToLower(path), CsvSuffix)
  }

  /** The suffix test spelled out: a dot, then c, s, v in either case. */
  lemma CsvPathByChars(path: string)
    ensures IsCsvPath(path) <==>
      && |path| >= 4
      && path[|path| - 4] == '.'
      && path[|path| - 3] in "cC"
      && path[|path| - 2] in "sS"
      && path[|path| - 1] in "vV"
  {
    var n := |path|;
    if n >= 4 {
      var low := ToLower(path);
      assert low[n - 4..] == [LowerChar(path[n - 4]), LowerChar(path[n - 3]), LowerChar(path[n - 2]), LowerChar(path[n - 1])];
    }
  }

  /** bufio's dropCR: one trailing carriage return is removed from a line. */
  function DropCR(s: string): (r: string)
    ensures r <= s
    ensures r + "\r" == s <==> |s| > 0 && s[|s| - 1] == '\r'
    ensures r != s ==> r + "\r" == s
  {
    if |s| > 0 && s[|s| - 1] == '\r' then s[..|s| - 1] else s
  }

  /** The tokens a bufio.Scanner with the default ScanLines split function
      yields: the text between newlines with a final '\r' dropped, and the
      unterminated remainder when it is not empty. */
  function ScanLines(content: string): (lines: seq<string>)
    ensures forall i | 0 <= i < |lines| :: '\n' !in lines[i]
    decreases |content|
  {
    if content == [] then []
    else if '\n' in content then
      var i := IndexOf(content, '\n');
      var line := DropCR(content[..i]);
      assert line <= content[..i];
      [line] + ScanLines(content[i + 1..])
    else [DropCR(content)]
  }

  /** dropCR applied to every line. */
  function DropCRs(raws: seq<string>): seq<string> {
    if raws == [] then [] else [DropCR(raws[0])] + DropCRs(raws[1..])
  }

  /** One newline-terminated line at the front of the text is scanned as
      that line, its final carriage return dropped. */
  lemma ScanStep(l: string, rest: string)
    requires '\n' !in l
    ensures ScanLines(l + "\n" + rest) == [DropCR(l)] + ScanLines(rest)
  {
    var c := l + "\n" + rest;
    assert c == l + ['\n'] + rest;
    IndexOfFirst(l, '\n', rest);
    assert c[..|l|] == l;
    assert c[|l| + 1..] == rest;
  }

  /** The scanner on any text: every newline-terminated line, with `\r\n`
      and `\n` endings mixed as they come, is returned without its newline
      and without one final carriage return, and so is a non-empty
      unterminated last line. */
  lemma {:induction false} ScanLinesGeneral(raws: seq<string>, last: string)
    requires forall i | 0 <= i < |raws| :: '\n' !in raws[i]
    requires '\n' !in last
    ensures ScanLines(JoinLines(raws) + last)
         == DropCRs(raws) + (if last == [] then [] else [DropCR(last)])
    decreases |raws|
  {
    if raws == [] {
      assert JoinLines(raws) + last == last;
    } else {
      var l := raws[0];
      var rest := JoinLines(raws[1..]) + last;
      AppendAssoc(l + "\n", JoinLines(raws[1..]), last);
      assert JoinLines(raws) + last == l + "\n" + rest;
      ScanStep(l, rest);
      ScanLinesGeneral(raws[1..], last);
      AppendAssoc([DropCR(l)], DropCRs(raws[1..]), if last == [] then [] else [DropCR(last)]);
    }
  }

  /** The text with a newline added when it does not already end in one. */
  function Terminated(s: string): string {
    if s == [] || s[|s| - 1] == '\n' then s else s + "\n"
  }

  /** The first scanned line of text holding a newline, when the text has
      no carriage return. */
  lemma ScanLinesCons(content: string)
    requires '\r' !in content && '\n' in content
    ensures var i := IndexOf(content, '\n');
      && content == content[..i] + "\n" + content[i + 1..]
      && ScanLines(content) == [content[..i]] + ScanLines(content[i + 1..])
  {
    var i := IndexOf(content, '\n');
    assert '\r' !in content[..i];
    assert content == content[..i] + [content[i]] + content[i + 1..];
  }

  lemma TerminatedCons(head: string, rest: string)
    ensures Terminated(head + "\n" + rest) == head + "\n" + Terminated(rest)
  {
    var s := head + "\n" + rest;
    if rest != [] {
      assert s[|s| - 1] == rest[|rest| - 1];
      AppendAssoc(head + "\n", rest, "\n");
    } else {
      AppendEmpty(head + "\n");
    }
  }

  /** Without carriage returns, the scanner's lines put back together with
      newlines give the original text, newline-terminated. */
  lemma {:induction false} ScanLinesRoundTrip(content: string)
    requires '\r' !in content
    ensures JoinLines(ScanLines(content)) == Terminated(content)
    decreases |content|
  {
    if content != [] {
      if '\n' in content {
        var i := IndexOf(content, '\n');
        var head, rest := content[..i], content[i + 1..];
        ScanLinesCons(content);
        assert '\r' !in rest;
        ScanLinesRoundTrip(rest);
        ConsJoinLines(head, ScanLines(rest));
        TerminatedCons(head, rest);
      } else {
        assert ScanLines(content) == [content];
        ConsJoinLines(content, []);
        AppendEmpty(content + "\n");
      }
    }
  }

  /** Lines as a Windows tool writes them: each followed by "\r\n". */
  function CrlfLines(lines: seq<string>): string {
    if lines == [] then "" else lines[0] + "\r\n" + CrlfLines(lines[1..])
  }

  /** The scanner strips the carriage return of every CRLF line ending: lines
      written with "\r\n" are read back as they were. */
  lemma {:induction false} ScanLinesCrlf(lines: seq<string>)
    requires forall i | 0 <= i < |lines| :: '\n' !in lines[i]
    ensures ScanLines(CrlfLines(lines)) == lines
    decreases |lines|
  {
    if lines != [] {
      var l, rest := lines[0], CrlfLines(lines[1..]);
      var content := CrlfLines(lines);
      assert content == (l + "\r") + ['\n'] + rest;
      assert '\n' !in l + "\r";
      IndexOfFirst(l + "\r", '\n', rest);
      assert content[..|l| + 1] == l + "\r";
      assert content[|l| + 2..] == rest;
      assert DropCR(l + "\r") == l;
      ScanLinesCrlf(lines[1..]);
      assert lines == [l] + lines[1..];
    }
  }

  /** Each scanned line with its commas turned into tabs. */
  function TabLines(lines: seq<string>): seq<string> {
    seq(|lines|, i requires 0 <= i < |lines| => ReplaceChar(lines[i], ',', '\t'))
  }

  /** Rewriting the lines one by one is rewriting the joined text. */
  lemma {:induction false} RewriteJoinedLines(lines: seq<string>)
    ensures JoinLines(TabLines(lines)) == ReplaceChar(JoinLines(lines), ',', '\t')
    decreases |lines|
  {
    if lines != [] {
      var l, rest := lines[0], lines[1..];
      assert TabLines(lines) == [ReplaceChar(l, ',', '\t')] + TabLines(rest);
      RewriteJoinedLines(rest);
      ReplaceCharAppend(l + "\n", JoinLines(rest), ',', '\t');
      ReplaceCharAppend(l, "\n", ',', '\t');
      assert ReplaceChar("\n", ',', '\t') == "\n";
    }
  }

  /** What os.Open gives the upload: an error, or the file's text together
      with whether the line scanner reports an error (a failed read, or a
      line longer than its buffer). */
  datatype SourceFile = OpenFailed | Opened(content: string, scanFails: bool)

  /** The multipart file part: its name and its bytes. */
  datatype Upload = Upload(filename: string, body: string)

  datatype UploadError = OpenError | ScanError

  /** uploadFile up to the multipart form: the name and text that reach the form. */
  function PrepareUpload(path: string, file: SourceFile): (r: Result<Upload, UploadError>)
    ensures file.OpenFailed? ==> r == Failure(OpenError)
    ensures file.Opened? && !IsCsvPath(path) ==> r == Success(Upload(path, file.content))
    ensures file.Opened? && IsCsvPath(path) ==> (r == Failure(ScanError) <==> file.scanFails)
    ensures r.Success? && IsCsvPath(path) ==> r.value.filename == path + TxtSuffix && ',' !in r.value.body
  {
    match file
    case OpenFailed => Failure(OpenError)
    case Opened(content, scanFails) =>
      if IsCsvPath(path) then
        if scanFails then Failure(ScanError)
        else
          var body := JoinLines(TabLines(ScanLines(content)));
          NoCommaAfterRewrite(ScanLines(content));
          Success(Upload(path + TxtSuffix, body))
      else Success(Upload(path, content))
  }

  lemma NoCommaAfterRewrite(lines: seq<string>)
    ensures ',' !in JoinLines(TabLines(lines))
  {
    RewriteJoinedLines(lines);
    ReplaceCharRemoves(JoinLines(lines), ',', '\t');
  }

  /** The converted CSV has exactly one newline-terminated line per scanned
      input line, in order, each being that line with its commas replaced. */
  lemma CsvUploadLines(path: string, content: string)
    requires IsCsvPath(path)
    ensures var r := PrepareUpload(path, Opened(content, false));
      var lines := ScanLines(content);
      && r.Success?
      && Split(r.value.body, '\n') == TabLines(lines) + [""]
      && |Split(r.value.body, '\n')| == |lines| + 1
  {
    var lines := ScanLines(content);
    var tabbed := TabLines(lines);
    forall i | 0 <= i < |tabbed| ensures '\n' !in tabbed[i] {
      assert '\n' !in lines[i];
    }
    SplitJoinLines(tabbed);
  }

  /** For text without carriage returns the converted CSV is the text itself
      with every comma made a tab and a final newline ensured. */
  lemma CsvUploadClosedForm(path: string, content: string)
    requires IsCsvPath(path) && '\r' !in content
    ensures PrepareUpload(path, Opened(content, false))
         == Success(Upload(path + TxtSuffix, ReplaceChar(Terminated(content), ',', '\t')))
  {
    ScanLinesRoundTrip(content);
    RewriteJoinedLines(ScanLines(content));
  }

  /** A CSV written with CRLF line endings is uploaded with LF endings and
      every comma made a tab. */
  lemma CsvUploadCrlf(path: string, lines: seq<string>)
    requires IsCsvPath(path)
    requires forall i | 0 <= i < |lines| :: '\n' !in lines[i]
    ensures PrepareUpload(path, Opened(CrlfLines(lines), false))
         == Success(Upload(path + TxtSuffix, ReplaceChar(JoinLines(lines), ',', '\t')))
  {
    ScanLinesCrlf(lines);
    RewriteJoinedLines(lines);
  }
}

=== FILE: auth.dfy ===
/** The decision made by the `Protect` middleware in pkg/auth/auth.go.

    The Authorization header is a string ("" when absent). JWT parsing and
    signature checking are an oracle from the token text to either a parse
    error or a token with its validity flag and claims. The header's first
    seven bytes are compared with "Bearer "; since that prefix is ASCII,
    comparing its first seven runes decides the same. */
module Auth {

  const BearerPrefix: string := "Bearer "

  /** A claim as decoded from the token's JSON payload. */
  datatype ClaimValue = Absent | Bool(b: bool) | Number(literal: string) | Text(s: string) | Other

  /** The claims the middleware reads: `admin`, and `sub` already converted
      to the user's integer id. */
  datatype Claims = Claims(admin: ClaimValue, sub: int)

  /** jwt.Parse: an error, or a token with its `Valid` flag and claims. */
  datatype TokenCheck = ParseError | Token(valid: bool, claims: Claims)

  type TokenParser = string -> TokenCheck

  /** 401, 403, or pass to the next handler with `userID` set. */
  datatype Decision = Unauthorized | Forbidden | Next(userID: int)

  predicate Accepted(check: TokenCheck) {
    check.Token? && check.valid
  }

  /** `claims["admin"] != true` is false only for the boolean true. */
  predicate IsAdmin(claims: Claims) {
    claims.admin == Bool(true)
  }

  /** The handler returned by Protect(requireAdmin), applied to one request. */
  function Protect(requireAdmin: bool, header: string, parse: TokenParser): (d: Decision)
    ensures d == Unauthorized <==>
      !HasBearer(header) || !Accepted(parse(header[|BearerPrefix|..]))
    ensures d == Forbidden <==>
      && HasBearer(header)
      && Accepted(parse(header[|BearerPrefix|..]))
      && requireAdmin
      && !IsAdmin(parse(header[|BearerPrefix|..]).claims)
    ensures d.Next? ==>
      && HasBearer(header)
      && var check := parse(header[|BearerPrefix|..]);
         Accepted(check) && (requireAdmin ==> IsAdmin(check.claims)) && d.userID == check.claims.sub
  {
    if |header| < 7 || header[..7] != BearerPrefix then Unauthorized
    else
      var tkn := header[7..];
      match parse(tkn)
      case ParseError => Unauthorized
      case Token(valid, claims) =>
        if !valid then Unauthorized
        else if requireAdmin && claims.admin != Bool(true) then Forbidden
        else Next(claims.sub)
  }

  predicate HasBearer(header: string) {
    BearerPrefix <= header
  }

  /** Without the exact, case-sensitive "Bearer " prefix the request is
      refused whatever the token oracle would say. */
  lemma NoBearerNoCheck(requireAdmin: bool, header: string, p1: TokenParser, p2: TokenParser)
    requires !HasBearer(header)
    ensures Protect(requireAdmin, header, p1) == Unauthorized
    ensures Protect(requireAdmin, header, p1) == Protect(requireAdmin, header, p2)
  {
  }

  /** The token checked is exactly the header after "Bearer ": two oracles
      that agree on it give the same decision. */
  lemma TokenIsHeaderRest(requireAdmin: bool, token: string, p1: TokenParser, p2: TokenParser)
    requires p1(token) == p2(token)
    ensures Protect(requireAdmin, BearerPrefix + token, p1) == Protect(requireAdmin, BearerPrefix + token, p2)
  {
    assert (BearerPrefix + token)[|BearerPrefix|..] == token;
  }

  /** A token that does not parse or is not valid is refused with 401,
      whether or not the route needs an admin. */
  lemma RejectedTokenUnauthorized(header: string, parse: TokenParser)
    requires HasBearer(header) && !Accepted(parse(header[|BearerPrefix|..]))
    ensures Protect(true, header, parse) == Unauthorized
    ensures Protect(false, header, parse) == Unauthorized
  {
  }

  /** The same tokens with their admin claim replaced. */
  function WithAdmin(parse: TokenParser, admin: ClaimValue): TokenParser {
    (t: string) =>
      match parse(t)
      case ParseError => ParseError
      case Token(valid, claims) => Token(valid, claims.(admin := admin))
  }

  /** Without requireAdmin the admin claim is never consulted; with it the
      only change is that some Next decisions become Forbidden. */
  lemma AdminClaimOnlyNarrows(header: string, parse: TokenParser, admin: ClaimValue)
    ensures Protect(false, header, parse) == Protect(false, header, WithAdmin(parse, admin))
    ensures Protect(false, header, parse) != Forbidden
    ensures Protect(true, header, parse).Next? ==> Protect(false, header, parse) == Protect(true, header, parse)
    ensures Protect(true, header, parse) == Forbidden ==> Protect(false, header, parse).Next?
  {
  }

  /** A lower-case scheme is not accepted. */
  lemma SchemeIsCaseSensitive(token: string, parse: TokenParser)
    ensures Protect(false, "bearer " + token, parse) == Unauthorized
  {
    assert ("bearer " + token)[0] == 'b';
  }
}

=== FILE: gofilepath.dfy ===
/** Go's `path/filepath.Ext` on a Unix host, where '/' is the only separator. */
module GoFilepath {
  import opened GoStrings

  const Separator: char := '/'

  /** Every dot of `path` is followed by a separator: the final element has
      no dot. */
  ghost predicate NoDotInFinalElement(path: string) {
    forall i | 0 <= i < |path| && path[i] == '.' :: Separator in path[i + 1..]
  }

  /** filepath.Ext: the suffix of `path` from the last dot of its final
      element, or "" when that element has no dot (see ExtEmptyIff). */
  function Ext(path: string): (ext: string)
    ensures HasSuffix(path, ext)
    ensures ext != [] ==> ext[0] == '.' && '.' !in ext[1..] && Separator !in ext
    decreases |path|
  {
    if |path| == 0 then ""
    else
      var n := |path| - 1;
      var c := path[n];
      if c == Separator then ""
      else if c == '.' then [c]
      else
        var e := Ext(path[..n]);
        if e == [] then "" else
          assert path[|path| - |e| - 1..] == path[..n][n - |e|..] + [c];
          e + [c]
  }

  /** The extension is empty exactly when the final element has no dot. */
  lemma {:induction false} ExtEmptyIff(path: string)
    ensures Ext(path) == [] <==> NoDotInFinalElement(path)
    decreases |path|
  {
    if |path| > 0 {
      var n := |path| - 1;
      var c := path[n];
      if c == Separator {
        forall i | 0 <= i < |path| && path[i] == '.' ensures Separator in path[i + 1..] {
          assert path[i + 1..][n - i - 1] == Separator;
        }
      } else if c == '.' {
        assert path[n + 1..] == [];
      } else {
        ExtEmptyIff(path[..n]);
        ExtStep(path, Ext(path[..n]));
      }
    }
  }

  /** How the final element's extension grows by one non-separator,
      non-dot rune. */
  lemma ExtStep(path: string, e: string)
    requires |path| > 0
    requires path[|path| - 1] != Separator && path[|path| - 1] != '.'
    requires HasSuffix(path[..|path| - 1], e)
    requires e != [] ==> e[0] == '.' && '.' !in e[1..] && Separator !in e
    requires e == [] <==> NoDotInFinalElement(path[..|path| - 1])
    ensures e == [] ==> NoDotInFinalElement(path)
    ensures e != [] ==> !NoDotInFinalElement(path)
  {
    var n := |path| - 1;
    var prefix := path[..n];
    if e == [] {
      forall i | 0 <= i < |path| && path[i] == '.' ensures Separator in path[i + 1..] {
        assert i < n;
        assert prefix[i] == '.';
        assert Separator in prefix[i + 1..];
        assert prefix[i + 1..] <= path[i + 1..];
      }
    } else {
      assert path[|path| - |e| - 1..] == prefix[|prefix| - |e|..] + [path[n]];
      var k := |prefix| - |e|;
      assert path[k] == '.';
      assert path[k + 1..] == e[1..] + [path[n]];
      assert Separator !in path[k + 1..];
    }
  }

  /** A dot followed by runes that are neither dots nor separators. */
  predicate IsSimpleExt(ext: string) {
    |ext| >= 1 && ext[0] == '.' && '.' !in ext[1..] && Separator !in ext
  }

  /** A path that ends in a simple extension has exactly that extension. */
  lemma ExtOfSuffix(path: string, ext: string)
    requires IsSimpleExt(ext) && HasSuffix(path, ext)
    ensures Ext(path) == ext
  {
    var n, m := |path|, |ext|;
    assert path[n - m] == '.';
    assert path[n - m + 1..] == ext[1..];
    assert !NoDotInFinalElement(path);
    ExtEmptyIff(path);
    var e := Ext(path);
    assert e == path[n - m..];
  }
}

=== FILE: gostrings.dfy ===
/** The parts of Go's `strings` package that the server relies on, over
    strings as sequences of characters (runes). The module also holds the
    few sequence facts those need (AppendAssoc, AppendEmpty, ConcatAppend),
    and JoinLines, the text of a loop writing each element followed by a
    newline, with its laws (JoinLinesSnoc, JoinLinesAppend, SplitJoinLines); they are not part
    of the `strings` API. */
module GoStrings {

  /** strings.HasPrefix */
  predicate HasPrefix(s: string, prefix: string) {
    prefix <= s
  }

  /** strings.HasSuffix */
  predicate HasSuffix(s: string, suffix: string) {
    |suffix| <= |s| && s[|s| - |suffix|..] == suffix
  }

  /** strings.TrimSuffix: drops `suffix` when `s` ends with it. */
  function TrimSuffix(s: string, suffix: string): (r: string)
    ensures HasSuffix(s, suffix) ==> r + suffix == s
    ensures !HasSuffix(s, suffix) ==> r == s
  {
    if HasSuffix(s, suffix) then s[..|s| - |suffix|] else s
  }

  /** unicode.IsSpace: the white-space runes strings.TrimSpace removes. */
  predicate IsSpace(c: char) {
    var n := c as int;
    || n == 0x09 || n == 0x0A || n == 0x0B || n == 0x0C || n == 0x0D || n == 0x20
    || n == 0x85 || n == 0xA0 || n == 0x1680 || (0x2000 <= n <= 0x200A)
    || n == 0x2028 || n == 0x2029 || n == 0x202F || n == 0x205F || n == 0x3000
  }

  function TrimLeftSpace(s: string): string {
    if s != [] && IsSpace(s[0]) then TrimLeftSpace(s[1..]) else s
  }

  function TrimRightSpace(s: string): string {
    if s != [] && IsSpace(s[|s| - 1]) then TrimRightSpace(s[..|s| - 1]) else s
  }

  /** strings.TrimSpace */
  function TrimSpace(s: string): string {
    TrimRightSpace(TrimLeftSpace(s))
  }

  lemma {:induction false} TrimLeftSpaceSpec(s: string)
    ensures var r := TrimLeftSpace(s);
      && |r| <= |s| && r == s[|s| - |r|..]
      && (forall i | 0 <= i < |s| - |r| :: IsSpace(s[i]))
      && (r == [] || !IsSpace(r[0]))
    decreases |s|
  {
    if s != [] && IsSpace(s[0]) {
      TrimLeftSpaceSpec(s[1..]);
    }
  }

  lemma {:induction false} TrimRightSpaceSpec(s: string)
    ensures var r := TrimRightSpace(s);
      && |r| <= |s| && r == s[..|r|]
      && (forall i | |r| <= i < |s| :: IsSpace(s[i]))
      && (r == [] || !IsSpace(r[|r| - 1]))
    decreases |s|
  {
    if s != [] && IsSpace(s[|s| - 1]) {
      TrimRightSpaceSpec(s[..|s| - 1]);
    }
  }

  /** `r` is `s` with the white space before position `start` and after
      position `start + |r|` removed. */
  ghost predicate SpacePadded(s: string, r: string, start: int) {
    && 0 <= start <= start + |r| <= |s|
    && s[start..start + |r|] == r
    && (forall i | 0 <= i < start :: IsSpace(s[i]))
    && (forall i | start + |r| <= i < |s| :: IsSpace(s[i]))
  }

  /** TrimSpace keeps the longest middle slice with no white space at either
      end. */
  lemma TrimSpaceSpec(s: string)
    ensures exists start :: SpacePadded(s, TrimSpace(s), start)
    ensures var r := TrimSpace(s); r == [] || (!IsSpace(r[0]) && !IsSpace(r[|r| - 1]))
  {
    var left := TrimLeftSpace(s);
    var r := TrimRightSpace(left);
    TrimLeftSpaceSpec(s);
    TrimRightSpaceSpec(left);
    var start := |s| - |left|;
    Padded(s, left, r, start);
    assert TrimSpace(s) == r;
    assert r == [] || r[0] == left[0];
  }

  /** Stripping both ends in turn leaves `s` padded around the result. */
  lemma Padded(s: string, left: string, r: string, start: nat)
    requires start <= |s| && left == s[start..]
    requires forall i | 0 <= i < start :: IsSpace(s[i])
    requires |r| <= |left| && r == left[..|r|]
    requires forall i | |r| <= i < |left| :: IsSpace(left[i])
    ensures SpacePadded(s, r, start)
  {
    forall i | start + |r| <= i < |s| ensures IsSpace(s[i]) {
      assert s[i] == left[i - start];
    }
  }

  lemma {:induction false} TrimLeftPadded(s: string, k: nat)
    requires k <= |s|
    requires forall i | 0 <= i < k :: IsSpace(s[i])
    requires k < |s| ==> !IsSpace(s[k])
    ensures TrimLeftSpace(s) == s[k..]
    decreases k
  {
    if k > 0 {
      var t := s[1..];
      forall i | 0 <= i < k - 1 ensures IsSpace(t[i]) {
        assert t[i] == s[i + 1];
      }
      assert k - 1 < |t| ==> t[k - 1] == s[k];
      TrimLeftPadded(t, k - 1);
      assert t[k - 1..] == s[k..];
    }
  }

  lemma {:induction false} TrimRightPadded(s: string, k: nat)
    requires k <= |s|
    requires forall i | k <= i < |s| :: IsSpace(s[i])
    requires k > 0 ==> !IsSpace(s[k - 1])
    ensures TrimRightSpace(s) == s[..k]
    decreases |s| - k
  {
    if k < |s| {
      var t := s[..|s| - 1];
      forall i | k <= i < |t| ensures IsSpace(t[i]) {
        assert t[i] == s[i];
      }
      assert k > 0 ==> t[k - 1] == s[k - 1];
      TrimRightPadded(t, k);
      assert t[..k] == s[..k];
    } else {
      assert s[..k] == s;
    }
  }

  /** The converse of TrimSpaceSpec: a text that is `r` padded with white
      space, where `r` neither starts nor ends with white space, trims to
      exactly `r`. */
  lemma TrimSpacePadded(s: string, r: string, start: int)
    requires SpacePadded(s, r, start)
    requires r == [] || (!IsSpace(r[0]) && !IsSpace(r[|r| - 1]))
    ensures TrimSpace(s) == r
  {
    if r == [] {
      forall i | 0 <= i < |s| ensures IsSpace(s[i]) {
        if i >= start { assert start + |r| <= i; }
      }
      TrimLeftPadded(s, |s|);
      assert TrimLeftSpace(s) == [];
    } else {
      assert s[start] == r[0];
      TrimLeftPadded(s, start);
      var left := s[start..];
      forall i | |r| <= i < |left| ensures IsSpace(left[i]) {
        assert left[i] == s[start + i];
      }
      assert left[|r| - 1] == r[|r| - 1];
      TrimRightPadded(left, |r|);
      assert left[..|r|] == r;
    }
  }

  /** strings.ReplaceAll with a one-rune pattern and a one-rune replacement. */
  function ReplaceChar(s: string, from: char, to: char): (r: string)
    ensures |r| == |s|
    ensures forall i | 0 <= i < |s| :: r[i] == (if s[i] == from then to else s[i])
  {
    if s == [] then [] else [if s[0] == from then to else s[0]] + ReplaceChar(s[1..], from, to)
  }

  lemma ReplaceCharRemoves(s: string, from: char, to: char)
    requires from != to
    ensures from !in ReplaceChar(s, from, to)
  {
  }

  lemma ReplaceCharAppend(a: string, b: string, from: char, to: char)
    ensures ReplaceChar(a + b, from, to) == ReplaceChar(a, from, to) + ReplaceChar(b, from, to)
  {
    var l := ReplaceChar(a + b, from, to);
    var r := ReplaceChar(a, from, to) + ReplaceChar(b, from, to);
    assert |l| == |r|;
    forall i | 0 <= i < |l| ensures l[i] == r[i] {
      if i < |a| { assert (a + b)[i] == a[i]; } else { assert (a + b)[i] == b[i - |a|]; }
    }
  }

  /** Only the ASCII capitals change: no other rune lower-cases to an ASCII
      letter other than 'i' and 'k', so the suffix tests made on the result
      agree with Go's full Unicode strings.ToLower. */
  function LowerChar(c: char): char {
    if 'A' <= c <= 'Z' then (c as int + 32) as char else c
  }

  /** strings.ToLower */
  function ToLower(s: string): (r: string)
    ensures |r| == |s|
    ensures forall i | 0 <= i < |r| :: !('A' <= r[i] <= 'Z')
    ensures forall i | 0 <= i < |s| :: 'A' <= s[i] <= 'Z' ==> r[i] as int == s[i] as int + 32
    ensures forall i | 0 <= i < |r| :: !('A' <= s[i] <= 'Z') ==> r[i] == s[i]
  {
    seq(|s|, i requires 0 <= i < |s| => LowerChar(s[i]))
  }

  /** The position of the first `c` in `s` (strings.IndexByte when `c` occurs). */
  function IndexOf(s: string, c: char): (i: nat)
    requires c in s
    ensures i < |s| && s[i] == c && c !in s[..i]
  {
    if s[0] == c then 0 else
      var j := IndexOf(s[1..], c);
      assert s[..j + 1] == [s[0]] + s[1..][..j];
      j + 1
  }

  lemma IndexOfFirst(a: string, c: char, b: string)
    requires c !in a
    ensures IndexOf(a + [c] + b, c) == |a|
  {
    var s := a + [c] + b;
    assert s[|a|] == c;
  }

  /** The text a strings.Builder holds after being fed `parts` in order. */
  function Concat(parts: seq<string>): string {
    if parts == [] then "" else parts[0] + Concat(parts[1..])
  }

  lemma AppendAssoc<T>(x: seq<T>, y: seq<T>, z: seq<T>)
    ensures (x + y) + z == x + (y + z)
  {
  }

  lemma AppendEmpty<T>(x: seq<T>)
    ensures x + [] == x && [] + x == x
  {
  }

  lemma ConcatCons(x: string, xs: seq<string>)
    ensures Concat([x] + xs) == x + Concat(xs)
  {
    assert ([x] + xs)[1..] == xs;
  }

  lemma {:induction false} ConcatAppend(a: seq<string>, b: seq<string>)
    ensures Concat(a + b) == Concat(a) + Concat(b)
    decreases |a|
  {
    if a == [] {
      assert a + b == b;
    } else {
      assert (a + b)[1..] == a[1..] + b;
      ConcatAppend(a[1..], b);
    }
  }

  /** strings.Join with a one-rune separator. */
  function Join(elems: seq<string>, sep: char): string {
    if |elems| == 0 then ""
    else if |elems| == 1 then elems[0]
    else elems[0] + [sep] + Join(elems[1..], sep)
  }

  /** strings.Split with a one-rune separator: the pieces between separators,
      always at least one. */
  function Split(s: string, sep: char): (parts: seq<string>)
    ensures |parts| >= 1
    ensures forall i | 0 <= i < |parts| :: sep !in parts[i]
    decreases |s|
  {
    if sep in s then
      var i := IndexOf(s, sep);
      [s[..i]] + Split(s[i + 1..], sep)
    else [s]
  }

  lemma SplitCons(a: string, sep: char, b: string)
    requires sep !in a
    ensures Split(a + [sep] + b, sep) == [a] + Split(b, sep)
  {
    var s := a + [sep] + b;
    IndexOfFirst(a, sep, b);
    assert s[..|a|] == a;
    assert s[|a| + 1..] == b;
  }

  /** Splitting a joined list gives the list back, as long as no element
      holds the separator. */
  lemma {:induction false} SplitJoin(elems: seq<string>, sep: char)
    requires |elems| >= 1
    requires forall i | 0 <= i < |elems| :: sep !in elems[i]
    ensures Split(Join(elems, sep), sep) == elems
    decreases |elems|
  {
    if |elems| > 1 {
      SplitCons(elems[0], sep, Join(elems[1..], sep));
      SplitJoin(elems[1..], sep);
    }
  }

  /** Each element followed by a newline, in order: what a loop writing
      `elem + "\n"` produces. */
  function JoinLines(lines: seq<string>): string {
    if lines == [] then "" else lines[0] + "\n" + JoinLines(lines[1..])
  }

  lemma ConsJoinLines(line: string, lines: seq<string>)
    ensures JoinLines([line] + lines) == line + "\n" + JoinLines(lines)
  {
    assert ([line] + lines)[1..] == lines;
  }

  lemma {:induction false} JoinLinesSnoc(lines: seq<string>, last: string)
    ensures JoinLines(lines + [last]) == JoinLines(lines) + last + "\n"
    decreases |lines|
  {
    if lines == [] {
      assert lines + [last] == [last];
    } else {
      assert (lines + [last])[1..] == lines[1..] + [last];
      JoinLinesSnoc(lines[1..], last);
    }
  }

  lemma {:induction false} JoinLinesAppend(a: seq<string>, b: seq<string>)
    ensures JoinLines(a + b) == JoinLines(a) + JoinLines(b)
    decreases |a|
  {
    if a == [] {
      assert a + b == b;
    } else {
      assert (a + b)[1..] == a[1..] + b;
      JoinLinesAppend(a[1..], b);
      AppendAssoc(a[0] + "\n", JoinLines(a[1..]), JoinLines(b));
    }
  }

  /** Splitting newline-terminated lines on '\n' gives the lines back, plus
      the empty piece after the final newline. */
  lemma {:induction false} SplitJoinLines(lines: seq<string>)
    requires forall i | 0 <= i < |lines| :: '\n' !in lines[i]
    ensures Split(JoinLines(lines), '\n') == lines + [""]
    decreases |lines|
  {
    if lines != [] {
      var rest := JoinLines(lines[1..]);
      assert JoinLines(lines) == lines[0] + ['\n'] + rest;
      SplitCons(lines[0], '\n', rest);
      SplitJoinLines(lines[1..]);
      assert lines == [lines[0]] + lines[1..];
      AppendAssoc([lines[0]], lines[1..], [""]);
    }
  }
}

=== FILE: gpt.dfy ===
/** `LoadConfigs` in pkg/gpt/loader.go, which fills the process-wide
    `Configs` map from a directory of YAML agent files, and `ReloadGPTs` in
    internal/handlers/admin.go, which calls it again on an admin request.

    The directory listing (already in the order ioutil.ReadDir returns it),
    each file's read and YAML decoding are inputs. The global map is passed
    in and the updated map is returned next to the error, so that what a
    failed load leaves behind stays visible. */
module Gpt {
  import opened Wrappers
  import opened GoStrings
  import opened GoFilepath

  const YamlExt: string := ".yaml"

  /** One agent; `temperature` is not modelled. */
  datatype GptConfig = GptConfig(
    slug: string, name: string, model: string, systemPrompt: string,
    files: seq<string>, rateLimit: string)

  datatype FileRead = ReadFails | Contents(data: string)

  /** A directory entry: its name and what ioutil.ReadFile gives for it. */
  datatype DirEntry = DirEntry(name: string, read: FileRead)

  datatype Listing = ListFails | Listed(entries: seq<DirEntry>)

  /** yaml.Unmarshal into a GptConfig; None when it reports an error. */
  type YamlDecoder = string -> Option<GptConfig>

  datatype LoadError = DirError | ReadError | ParseError

  /** The `Configs` map after the call, and the error it returned. */
  datatype Loaded = Loaded(configs: map<string, GptConfig>, err: Option<LoadError>)

  /** The loader's file test, `filepath.Ext(name) == ".yaml"`, which holds
      exactly when the name ends in ".yaml" (YamlIsExactSuffix). */
  predicate IsYaml(entry: DirEntry) {
    HasSuffix(entry.name, YamlExt)
  }

  /** The config a file's contents decode to, if it can be read and decoded. */
  function Decoded(entry: DirEntry, decode: YamlDecoder): Option<GptConfig> {
    match entry.read
    case ReadFails => None
    case Contents(data) => decode(data)
  }

  /** A ".yaml" entry that stops the load. */
  predicate Fails(entry: DirEntry, decode: YamlDecoder) {
    IsYaml(entry) && Decoded(entry, decode).None?
  }

  /** The loop of LoadConfigs over the directory entries. */
  function LoadEntries(entries: seq<DirEntry>, decode: YamlDecoder, configs: map<string, GptConfig>): (r: Loaded)
    ensures configs.Keys <= r.configs.Keys
    ensures forall slug | slug in r.configs && slug !in configs ::
      exists i | 0 <= i < |entries| :: Provides(entries[i], decode, slug)
    decreases |entries|
  {
    if entries == [] then Loaded(configs, None)
    else
      var f := entries[0];
      if !IsYaml(f) then
        var r := LoadEntries(entries[1..], decode, configs);
        ProvidesInTail(entries, decode, r.configs.Keys - configs.Keys);
        r
      else match f.read
        case ReadFails => Loaded(configs, Some(ReadError))
        case Contents(data) =>
          match decode(data)
          case None => Loaded(configs, Some(ParseError))
          case Some(cfg) =>
            var r := LoadEntries(entries[1..], decode, configs[cfg.slug := cfg]);
            ProvidesInTail(entries, decode, r.configs.Keys - configs.Keys - {cfg.slug});
            assert Provides(entries[0], decode, cfg.slug);
            r
  }

  /** The entry is a ".yaml" file whose config has slug `slug`. */
  predicate Provides(entry: DirEntry, decode: YamlDecoder, slug: string) {
    IsYaml(entry) && Decoded(entry, decode).Some? && Decoded(entry, decode).value.slug == slug
  }

  lemma ProvidesInTail(entries: seq<DirEntry>, decode: YamlDecoder, slugs: set<string>)
    requires |entries| > 0
    requires forall slug | slug in slugs :: exists i | 0 <= i < |entries| - 1 :: Provides(entries[1..][i], decode, slug)
    ensures forall slug | slug in slugs :: exists i | 0 <= i < |entries| :: Provides(entries[i], decode, slug)
  {
    forall slug | slug in slugs ensures exists i | 0 <= i < |entries| :: Provides(entries[i], decode, slug) {
      var i :| 0 <= i < |entries| - 1 && Provides(entries[1..][i], decode, slug);
      assert entries[1..][i] == entries[i + 1];
    }
  }

  /** LoadConfigs: a listing failure returns before touching the map. */
  function LoadConfigs(dir: Listing, decode: YamlDecoder, configs: map<string, GptConfig>): (r: Loaded)
    ensures configs.Keys <= r.configs.Keys
    ensures dir.ListFails? ==> r == Loaded(configs, Some(DirError))
  {
    match dir
    case ListFails => Loaded(configs, Some(DirError))
    case Listed(entries) => LoadEntries(entries, decode, configs)
  }

  const StatusOK: int := 200
  const StatusInternalServerError: int := 500

  /** ReloadGPTs: the map after reloading "configs/gpts", and the HTTP status
      of the reply. */
  function ReloadGpts(dir: Listing, decode: YamlDecoder, configs: map<string, GptConfig>): (r: (map<string, GptConfig>, int))
    ensures configs.Keys <= r.0.Keys
    ensures r.1 == StatusOK || r.1 == StatusInternalServerError
  {
    var loaded := LoadConfigs(dir, decode, configs);
    (loaded.configs, if loaded.err.Some? then StatusInternalServerError else StatusOK)
  }

  // ---------------------------------------------------------------------
  // Reference definitions

  /** The first entry that stops the load, or |entries|. */
  function FirstFailure(entries: seq<DirEntry>, decode: YamlDecoder): (k: nat)
    ensures k <= |entries|
    ensures k < |entries| ==> Fails(entries[k], decode)
    ensures forall i | 0 <= i < k :: !Fails(entries[i], decode)
    decreases |entries|
  {
    if entries == [] then 0
    else if Fails(entries[0], decode) then 0
    else 1 + FirstFailure(entries[1..], decode)
  }

  /** The last entry that provides `slug`, or -1. */
  function LastProvider(entries: seq<DirEntry>, decode: YamlDecoder, slug: string): (i: int)
    ensures -1 <= i < |entries|
    ensures i >= 0 ==> Provides(entries[i], decode, slug)
    ensures forall j | i < j < |entries| :: !Provides(entries[j], decode, slug)
    decreases |entries|
  {
    if entries == [] then -1
    else if Provides(entries[|entries| - 1], decode, slug) then |entries| - 1
    else LastProvider(entries[..|entries| - 1], decode, slug)
  }

  // ---------------------------------------------------------------------
  // Properties

  /** The error a failing ".yaml" entry ends the load with. */
  function FailureOf(entry: DirEntry): LoadError {
    if entry.read.ReadFails? then ReadError else ParseError
  }

  /** A failing ".yaml" entry ends the load with its error; what the entries
      before it inserted stays in the map (there is no rollback) and no later
      entry is read. */
  lemma {:induction false} LoadStopsAtFailure(ok: seq<DirEntry>, bad: DirEntry, rest: seq<DirEntry>,
                                              decode: YamlDecoder, configs: map<string, GptConfig>)
    requires forall i | 0 <= i < |ok| :: !Fails(ok[i], decode)
    requires Fails(bad, decode)
    ensures LoadEntries(ok + [bad] + rest, decode, configs)
         == Loaded(LoadEntries(ok, decode, configs).configs, Some(FailureOf(bad)))
    decreases |ok|
  {
    if ok == [] {
      assert ok + [bad] + rest == [bad] + rest;
      assert LoadEntries(ok, decode, configs).configs == configs;
    } else {
      var f := ok[0];
      assert !Fails(ok[0], decode);
      assert (ok + [bad] + rest)[0] == f;
      assert (ok + [bad] + rest)[1..] == ok[1..] + [bad] + rest;
      if IsYaml(f) {
        LoadStopsAtFailure(ok[1..], bad, rest, decode, configs[Decoded(f, decode).value.slug := Decoded(f, decode).value]);
      } else {
        LoadStopsAtFailure(ok[1..], bad, rest, decode, configs);
      }
    }
  }

  /** The load fails exactly when some ".yaml" entry fails, and then with the
      first such entry's error and the map as the entries before it left it. */
  lemma LoadStopsAtFirstFailure(entries: seq<DirEntry>, decode: YamlDecoder, configs: map<string, GptConfig>)
    ensures var k := FirstFailure(entries, decode);
      var r := LoadEntries(entries, decode, configs);
      && (r.err.None? <==> k == |entries|)
      && (k < |entries| ==> r == Loaded(LoadEntries(entries[..k], decode, configs).configs, Some(FailureOf(entries[k]))))
  {
    var k := FirstFailure(entries, decode);
    if k < |entries| {
      assert entries == entries[..k] + [entries[k]] + entries[k + 1..];
      LoadStopsAtFailure(entries[..k], entries[k], entries[k + 1..], decode, configs);
    } else {
      LoadedConfigs(entries, decode, configs, []);
    }
  }

  /** Loading one more entry after a run of entries that all load. */
  lemma {:induction false} LoadSnoc(entries: seq<DirEntry>, last: DirEntry, decode: YamlDecoder, configs: map<string, GptConfig>)
    requires forall i | 0 <= i < |entries| :: !Fails(entries[i], decode)
    ensures LoadEntries(entries + [last], decode, configs)
         == LoadEntries([last], decode, LoadEntries(entries, decode, configs).configs)
    decreases |entries|
  {
    if entries == [] {
      assert entries + [last] == [last];
    } else {
      var f := entries[0];
      assert (entries + [last])[0] == f;
      assert (entries + [last])[1..] == entries[1..] + [last];
      if IsYaml(f) {
        LoadSnoc(entries[1..], last, decode, configs[Decoded(f, decode).value.slug := Decoded(f, decode).value]);
      } else {
        LoadSnoc(entries[1..], last, decode, configs);
      }
    }
  }

  /** The value a successful load leaves under `slug`: the config of the
      last entry providing it, else the value that was there before. */
  ghost predicate LoadedAs(r: map<string, GptConfig>, entries: seq<DirEntry>, decode: YamlDecoder,
                           configs: map<string, GptConfig>, slug: string)
  {
    var i := LastProvider(entries, decode, slug);
    if i >= 0 then slug in r && r[slug] == Decoded(entries[i], decode).value
    else (slug in r <==> slug in configs) && (slug in configs ==> r[slug] == configs[slug])
  }

  /** Loading one entry that does not fail. */
  lemma LoadOne(last: DirEntry, decode: YamlDecoder, m: map<string, GptConfig>)
    requires !Fails(last, decode)
    ensures LoadEntries([last], decode, m).err.None?
    ensures !IsYaml(last) ==> LoadEntries([last], decode, m).configs == m
    ensures IsYaml(last) ==> LoadEntries([last], decode, m).configs
                              == m[Decoded(last, decode).value.slug := Decoded(last, decode).value]
  {
    assert [last][1..] == [];
  }

  lemma LoadedAsSnoc(init: seq<DirEntry>, last: DirEntry, decode: YamlDecoder,
                     configs: map<string, GptConfig>, m: map<string, GptConfig>, slug: string)
    requires !Fails(last, decode)
    requires LoadedAs(m, init, decode, configs, slug)
    ensures LoadedAs(LoadEntries([last], decode, m).configs, init + [last], decode, configs, slug)
  {
    LoadOne(last, decode, m);
    var entries := init + [last];
    var r := LoadEntries([last], decode, m).configs;
    assert entries[..|entries| - 1] == init;
    assert entries[|entries| - 1] == last;
    if Provides(last, decode, slug) {
      assert LastProvider(entries, decode, slug) == |init|;
      assert r == m[slug := Decoded(last, decode).value];
    } else {
      var i := LastProvider(init, decode, slug);
      assert LastProvider(entries, decode, slug) == i;
      assert slug in r <==> slug in m;
      assert slug in m ==> r[slug] == m[slug];
      if i >= 0 {
        assert entries[i] == init[i];
      }
    }
  }

  /** When no ".yaml" entry fails, the load succeeds, every config is stored
      under its slug, a later entry with the same slug replaces an earlier
      one, and every other slug keeps its old value. */
  lemma {:induction false} LoadedConfigs(entries: seq<DirEntry>, decode: YamlDecoder,
                                         configs: map<string, GptConfig>, slug: string)
    requires forall i | 0 <= i < |entries| :: !Fails(entries[i], decode)
    ensures LoadEntries(entries, decode, configs).err.None?
    ensures LoadedAs(LoadEntries(entries, decode, configs).configs, entries, decode, configs, slug)
    decreases |entries|
  {
    if entries != [] {
      var n := |entries| - 1;
      var init, last := entries[..n], entries[n];
      assert entries == init + [last];
      assert !Fails(last, decode);
      forall i | 0 <= i < |init| ensures !Fails(init[i], decode) {
        assert init[i] == entries[i];
      }
      LoadedConfigs(init, decode, configs, slug);
      LoadSnoc(init, last, decode, configs);
      var m := LoadEntries(init, decode, configs).configs;
      LoadOne(last, decode, m);
      LoadedAsSnoc(init, last, decode, configs, m, slug);
    }
  }

  /** Entries without the exact ".yaml" extension are never read: adding one
      anywhere changes nothing, even if reading it would fail. */
  lemma {:induction false} NonYamlIgnored(pre: seq<DirEntry>, entry: DirEntry, post: seq<DirEntry>,
                                          decode: YamlDecoder, configs: map<string, GptConfig>)
    requires !IsYaml(entry)
    ensures LoadEntries(pre + [entry] + post, decode, configs) == LoadEntries(pre + post, decode, configs)
    decreases |pre|
  {
    if pre == [] {
      assert pre + [entry] + post == [entry] + post;
      assert ([entry] + post)[1..] == post;
      assert pre + post == post;
    } else {
      var f := pre[0];
      assert (pre + [entry] + post)[0] == f && (pre + post)[0] == f;
      assert (pre + [entry] + post)[1..] == pre[1..] + [entry] + post;
      assert (pre + post)[1..] == pre[1..] + post;
      if IsYaml(f) && Decoded(f, decode).Some? {
        NonYamlIgnored(pre[1..], entry, post, decode, configs[Decoded(f, decode).value.slug := Decoded(f, decode).value]);
      } else if !IsYaml(f) {
        NonYamlIgnored(pre[1..], entry, post, decode, configs);
      }
    }
  }

  /** The extension test is exact: `filepath.Ext` of a name is ".yaml"
      iff the name ends in ".yaml", so ".yml" and upper-case spellings are
      skipped. */
  lemma YamlIsExactSuffix(entry: DirEntry)
    ensures IsYaml(entry) <==> Ext(entry.name) == YamlExt
  {
    if HasSuffix(entry.name, YamlExt) {
      assert IsSimpleExt(YamlExt);
      ExtOfSuffix(entry.name, YamlExt);
    }
  }

  lemma OtherSpellingsSkipped(read: FileRead)
    ensures Ext("agent.yml") != YamlExt && !IsYaml(DirEntry("agent.yml", read))
    ensures Ext("agent.YAML") != YamlExt && !IsYaml(DirEntry("agent.YAML", read))
  {
    assert "agent.YAML"[5..][1] != YamlExt[1];
    assert "agent.yml"[4..][0] != YamlExt[0];
    YamlIsExactSuffix(DirEntry("agent.yml", read));
    YamlIsExactSuffix(DirEntry("agent.YAML", read));
  }

  /** The reload answers 200 exactly when the directory can be listed and
      every ".yaml" file in it can be read and decoded. */
  lemma ReloadSucceedsIff(dir: Listing, decode: YamlDecoder, configs: map<string, GptConfig>)
    ensures ReloadGpts(dir, decode, configs).1 == StatusOK
        <==> dir.Listed? && forall i | 0 <= i < |dir.entries| :: !Fails(dir.entries[i], decode)
  {
    if dir.Listed? {
      LoadStopsAtFirstFailure(dir.entries, decode, configs);
    }
  }
}

=== FILE: utils.dfy ===
/** `ConvertCSVToTxt` in pkg/utils/utils.go: the ".txt" companion of a CSV
    file is derived from its path, reused when it already exists, and
    otherwise written with one tab-separated line per CSV record.

    The file system is abstract: `disk` says, for every path os.Stat can
    see, whether it exists or cannot be examined (a path not in the map does
    not exist); the CSV side is the outcome of opening and parsing the file
    with encoding/csv; the ".txt" side says whether it can be created and
    which record's write fails, if any. */
module Utils {
  import opened Wrappers
  import opened GoStrings
  import opened GoFilepath

  const TxtExt: string := ".txt"

  /** The derived text path: the path with its extension replaced by ".txt". */
  function TxtPath(csvPath: string): (r: string)
    ensures HasSuffix(r, TxtExt)
    ensures r[..|r| - |TxtExt|] + Ext(csvPath) == csvPath
  {
    TrimSuffix(csvPath, Ext(csvPath)) + TxtExt
  }

  /** A path that already ends in ".txt" is its own text path. */
  lemma TxtPathKeepsTxt(path: string)
    requires HasSuffix(path, TxtExt)
    ensures TxtPath(path) == path
  {
    assert IsSimpleExt(TxtExt);
    ExtOfSuffix(path, TxtExt);
    assert path[..|path| - 4] + TxtExt == path;
  }

  /** Deriving twice is deriving once. */
  lemma TxtPathIdempotent(path: string)
    ensures TxtPath(TxtPath(path)) == TxtPath(path)
  {
    TxtPathKeepsTxt(TxtPath(path));
  }

  /** Only the final element changes: the directory part is kept. */
  lemma {:induction false} ExtOfFinalElement(dir: string, name: string)
    ensures Ext(dir + [Separator] + name) == Ext(name)
    decreases |name|
  {
    var p := dir + [Separator] + name;
    if name == [] {
      assert p[|p| - 1] == Separator;
    } else {
      var n := |name| - 1;
      var c := name[n];
      assert p[|p| - 1] == c;
      if c != Separator && c != '.' {
        DropLast(dir, name);
        ExtOfFinalElement(dir, name[..n]);
      }
    }
  }

  lemma DropLast(dir: string, name: string)
    requires name != []
    ensures var p := dir + [Separator] + name;
      p[..|p| - 1] == dir + [Separator] + name[..|name| - 1]
  {
  }

  lemma TxtPathInDirectory(dir: string, name: string)
    ensures TxtPath(dir + [Separator] + name) == dir + [Separator] + TxtPath(name)
  {
    var p := dir + [Separator] + name;
    ExtOfFinalElement(dir, name);
    var e := Ext(name);
    assert |e| <= |name|;
    var stem := name[..|name| - |e|];
    assert TrimSuffix(p, e) == p[..|p| - |e|];
    assert TrimSuffix(name, e) == stem;
    assert p[..|p| - |e|] == dir + [Separator] + stem;
    AppendAssoc(dir + [Separator], stem, TxtExt);
  }

  /** The `strings.Join(record, "\t")` of the write loop: one record's line, without its newline. */
  function RecordLine(record: seq<string>): string {
    Join(record, '\t')
  }

  function RecordLines(records: seq<seq<string>>): seq<string> {
    seq(|records|, i requires 0 <= i < |records| => RecordLine(records[i]))
  }

  /** The text the write loop of ConvertCSVToTxt writes for `records`. */
  function TabText(records: seq<seq<string>>): string {
    JoinLines(RecordLines(records))
  }

  /** Every field free of newlines, tabs, or both. */
  predicate FieldsAvoid(records: seq<seq<string>>, c: char) {
    forall i, j | 0 <= i < |records| && 0 <= j < |records[i]| :: c !in records[i][j]
  }

  lemma JoinAvoids(fields: seq<string>, sep: char, c: char)
    requires c != sep
    requires forall j | 0 <= j < |fields| :: c !in fields[j]
    ensures c !in Join(fields, sep)
    decreases |fields|
  {
    if |fields| > 1 {
      JoinAvoids(fields[1..], sep, c);
    }
  }

  /** A rune of any element survives the join. */
  lemma {:induction false} JoinKeeps(fields: seq<string>, sep: char, j: nat, c: char)
    requires j < |fields| && c in fields[j]
    ensures c in Join(fields, sep)
    decreases |fields|
  {
    if |fields| > 1 {
      if j == 0 {
        assert Join(fields, sep) == fields[0] + ([sep] + Join(fields[1..], sep));
      } else {
        JoinKeeps(fields[1..], sep, j - 1, c);
      }
    }
  }

  /** The text has exactly one line per record, in record order, each the
      fields joined by tabs, as long as no field holds a newline. */
  lemma TabTextLines(records: seq<seq<string>>)
    requires FieldsAvoid(records, '\n')
    ensures Split(TabText(records), '\n') == RecordLines(records) + [""]
  {
    var lines := RecordLines(records);
    forall i | 0 <= i < |lines| ensures '\n' !in lines[i] {
      JoinAvoids(records[i], '\t', '\n');
    }
    SplitJoinLines(lines);
  }

  /** Reading the text back as tab-separated lines gives the records, when
      no field holds a tab or a newline and no record is empty (encoding/csv
      never returns an empty record). */
  function ParseTabText(text: string): seq<seq<string>> {
    var lines := Split(text, '\n');
    seq(|lines| - 1, i requires 0 <= i < |lines| - 1 => Split(lines[i], '\t'))
  }

  lemma TabTextRoundTrip(records: seq<seq<string>>)
    requires FieldsAvoid(records, '\n') && FieldsAvoid(records, '\t')
    requires forall i | 0 <= i < |records| :: |records[i]| >= 1
    ensures ParseTabText(TabText(records)) == records
  {
    TabTextLines(records);
    var parsed := ParseTabText(TabText(records));
    assert |parsed| == |records|;
    forall i | 0 <= i < |records| ensures parsed[i] == records[i] {
      SplitJoin(records[i], '\t');
    }
  }

  /** A field with a newline in it (a quoted CSV field) breaks the
      one-line-per-record layout: the newline reaches the record's line, and
      the text no longer splits into the records' lines. */
  lemma EmbeddedNewlineSplitsRecord(records: seq<seq<string>>, i: nat, j: nat)
    requires i < |records| && j < |records[i]| && '\n' in records[i][j]
    ensures '\n' in RecordLine(records[i])
    ensures Split(TabText(records), '\n') != RecordLines(records) + [""]
  {
    JoinKeeps(records[i], '\t', j, '\n');
    assert (RecordLines(records) + [""])[i] == RecordLine(records[i]);
  }

  /** What os.Stat reports about a path that is in the map. */
  datatype Presence = Present | Unstattable

  /** Opening and parsing the CSV file with encoding/csv's ReadAll. */
  datatype CsvSource = OpenFails | ParseFails | Parsed(records: seq<seq<string>>)

  /** The write that fails: the one for record `at`, after `landed` runes of
      its line reached the file (a short write, say on a full disk). */
  datatype WriteFault = WriteFault(at: nat, landed: nat)

  /** The ".txt" file: os.Create fails, or one record's write fails
      (`fault`), or every write succeeds (None). */
  datatype TxtSink = CreateFails | Created(fault: Option<WriteFault>)

  datatype Conversion = Reused(path: string) | Written(path: string, text: string)

  datatype ConvertError = StatError | OpenError | ReadError | CreateError | WriteError

  /** What a failing write of `record`'s line leaves in the file: a proper
      prefix of the line, since WriteString reports an error whenever it
      wrote less than the whole line. A `landed` count beyond that is capped
      just short of the line. */
  function Landed(record: seq<string>, landed: nat): (r: string)
    ensures r < RecordLine(record) + "\n"
    ensures landed < |RecordLine(record)| + 1 ==> |r| == landed
  {
    var line := RecordLine(record) + "\n";
    line[..if landed < |line| then landed else |line| - 1]
  }

  /** The full text is the records before `k`, record `k`'s line, and the
      records after it. */
  lemma TabTextAt(records: seq<seq<string>>, k: nat)
    requires k < |records|
    ensures TabText(records) == TabText(records[..k]) + (RecordLine(records[k]) + "\n") + TabText(records[k + 1..])
  {
    var lines := RecordLines(records);
    assert lines == RecordLines(records[..k]) + ([RecordLine(records[k])] + RecordLines(records[k + 1..]));
    JoinLinesAppend(RecordLines(records[..k]), [RecordLine(records[k])] + RecordLines(records[k + 1..]));
    ConsJoinLines(RecordLine(records[k]), RecordLines(records[k + 1..]));
    AppendAssoc(TabText(records[..k]), RecordLine(records[k]) + "\n", TabText(records[k + 1..]));
  }

  /** The text a failed write loop leaves is a proper prefix of the text a
      successful one writes. */
  lemma TruncatedIsPrefix(records: seq<seq<string>>, fault: WriteFault)
    requires fault.at < |records|
    ensures TabText(records[..fault.at]) + Landed(records[fault.at], fault.landed) < TabText(records)
  {
    var k := fault.at;
    var line := RecordLine(records[k]) + "\n";
    var part := Landed(records[k], fault.landed);
    TabTextAt(records, k);
    assert line == part + line[|part|..];
    AppendAssoc(TabText(records[..k]), part, line[|part|..]);
    AppendAssoc(TabText(records[..k]) + part, line[|part|..], TabText(records[k + 1..]));
  }

  /** The write loop of ConvertCSVToTxt: writes each record's line in order
      and stops at the first write that fails. `written` is what reached the
      file. */
  method WriteRecords(records: seq<seq<string>>, fault: Option<WriteFault>) returns (written: string, ok: bool)
    ensures ok <==> fault.None? || fault.value.at >= |records|
    ensures ok ==> written == TabText(records)
    ensures !ok ==> written == TabText(records[..fault.value.at]) + Landed(records[fault.value.at], fault.value.landed)
    ensures !ok ==> written < TabText(records)
  {
    written := "";
    var i := 0;
    while i < |records|
      invariant 0 <= i <= |records|
      invariant fault.None? || fault.value.at >= i
      invariant written == TabText(records[..i])
    {
      if fault.Some? && fault.value.at == i {
        TruncatedIsPrefix(records, fault.value);
        return written + Landed(records[i], fault.value.landed), false;
      }
      assert records[..i + 1] == records[..i] + [records[i]];
      assert RecordLines(records[..i + 1]) == RecordLines(records[..i]) + [RecordLine(records[i])];
      JoinLinesSnoc(RecordLines(records[..i]), RecordLine(records[i]));
      written := written + RecordLine(records[i]) + "\n";
      i := i + 1;
    }
    assert records[..i] == records;
    ok := true;
  }

  /** ConvertCSVToTxt. Besides the result, `after` is what os.Stat sees
      once the call returns and `txtText` is the text of the ".txt" file
      when this call created it. os.Create makes the file before any record
      is written and nothing removes it when a write fails, so a failed
      conversion leaves a truncated ".txt" behind. */
  method ConvertCsvToTxt(csvPath: string, disk: map<string, Presence>, source: CsvSource, sink: TxtSink)
    returns (r: Result<Conversion, ConvertError>, after: map<string, Presence>, txtText: Option<string>)
    ensures var txt := TxtPath(csvPath);
      && (txt in disk && disk[txt] == Present ==> r == Success(Reused(txt)))
      && (txt in disk && disk[txt] == Unstattable ==> r == Failure(StatError))
      && (r.Success? ==> r.value.path == txt)
    ensures TxtPath(csvPath) !in disk ==>
      match source
      case OpenFails => r == Failure(OpenError)
      case ParseFails => r == Failure(ReadError)
      case Parsed(records) =>
        match sink
        case CreateFails => r == Failure(CreateError)
        case Created(fault) =>
          if fault.Some? && fault.value.at < |records|
          then && r == Failure(WriteError)
               && txtText == Some(TabText(records[..fault.value.at]) + Landed(records[fault.value.at], fault.value.landed))
               && txtText.value < TabText(records)
          else r == Success(Written(TxtPath(csvPath), TabText(records)))
    ensures txtText.Some? <==> TxtPath(csvPath) !in disk && source.Parsed? && sink.Created?
    ensures txtText.Some? ==> after == disk[TxtPath(csvPath) := Present]
    ensures txtText.None? ==> after == disk
    ensures r.Success? && r.value.Written? ==> txtText == Some(r.value.text)
  {
    var txtPath := TxtPath(csvPath);
    after := disk;
    txtText := None;
    if txtPath in disk {
      if disk[txtPath] == Present {
        return Success(Reused(txtPath)), after, txtText;
      }
      return Failure(StatError), after, txtText;
    }
    match source {
      case OpenFails => return Failure(OpenError), after, txtText;
      case ParseFails => return Failure(ReadError), after, txtText;
      case Parsed(records) =>
        match sink {
          case CreateFails => return Failure(CreateError), after, txtText;
          case Created(fault) =>
            after := disk[txtPath := Present];
            var written, ok := WriteRecords(records, fault);
            txtText := Some(written);
            if !ok {
              return Failure(WriteError), after, txtText;
            }
            return Success(Written(txtPath, written)), after, txtText;
        }
    }
  }

  /** A conversion that wrote its ".txt" file, completely or not, makes the
      next call for the same CSV return that file without reading the CSV:
      after a failed write the truncated text is reported as a success. */
  method ConvertTwice(csvPath: string, disk: map<string, Presence>, source: CsvSource, sink: TxtSink,
                      laterSource: CsvSource, laterSink: TxtSink)
    returns (first: Result<Conversion, ConvertError>, second: Result<Conversion, ConvertError>, stale: Option<string>)
    ensures first == Failure(WriteError) ==>
      && second == Success(Reused(TxtPath(csvPath)))
      && source.Parsed? && sink.Created? && sink.fault.Some? && sink.fault.value.at < |source.records|
      && stale == Some(TabText(source.records[..sink.fault.value.at])
                       + Landed(source.records[sink.fault.value.at], sink.fault.value.landed))
      && stale.value < TabText(source.records)
    ensures first.Success? ==> second == Success(Reused(first.value.path))
  {
    var after;
    first, after, stale := ConvertCsvToTxt(csvPath, disk, source, sink);
    var laterAfter, laterText;
    second, laterAfter, laterText := ConvertCsvToTxt(csvPath, after, laterSource, laterSink);
  }
}

=== FILE: wrappers.dfy ===
/** Failure-carrying datatypes shared by the model: `Option` for a value that
    may be absent (a decode that failed, a claim that is missing) and `Result`
    for the `(value, error)` pairs that the Go functions return. */
module Wrappers {

  datatype Option<+T> = None | Some(value: T)

  datatype Result<+R, +E> = Success(value: R) | Failure(error: E)
}
